=== FILE: README.md ===
# A Dafny model of the fastq_screen benchmark test

This project models the core of `tests/test_fastqscreen.py`. That file is a
Python 2 unittest case. It runs Fastq Screen (a contamination screen for
sequencing reads) against several reference genomes and turns each run into a
performance record. The model covers the following parts:

- **Report parsing** (`_fastq_screen_metrics_to_json`). The tab-separated
  Fastq Screen result is read as csv rows: a version row, a header row, then
  one row per organism up to the first blank row. Every row becomes a dict
  keyed by the header labels. The first organism gives the contamination rate
  and the screen index, with a sanity `assert` on its percentages. The memory
  samples give the maximum, minimum and mean. Every Python exception the
  modelled steps can raise is kept, in Python's order (errors of the csv
  reader and of `json.dumps` are not modelled): `StopIteration` (missing
  rows), `IndexError` (short rows), `ValueError` (non-numeric cells, empty
  memory list), `KeyError` (missing columns), `TypeError` (a summed
  percentage column that is also the first header label, which holds the
  reference name) and `AssertionError` (the sanity bound).
- **Configuration text** (`_genconf`). The global `BOWTIE`/`THREADS` section
  is stored on the test object and returned followed by one `DATABASE` line.
  For bowtie 1 the index path is built under the reference directory; for
  bowtie2 the reference is used as given.
- **Result file name.** A screened fastq file `dir/x.fastq` produces
  `x_screen.txt`.
- **Bowtie2 index paths** (`_find_bowtie2_indices`). Every entry of the
  reference directory is mapped through the site map to
  `<site prefix>/<organism>/<name>/bowtie2/<name>`. The first unknown entry
  raises `KeyError`.
- **The fixture state** that these operations read and write (`setUp`).

Modules:

- `Outcomes`: Python exceptions as a `Result`.
- `Text`: ASCII `str.upper`, `split`, left-stripping spaces.
- `PosixPath`: `posixpath.basename`, `dirname`, `join`, `splitext`.
- `FloatParse`: the decimal subset of `float()`.
- `MemStats`: `max`, `min`, mean.
- `ScreenReport`: the report specification and its lemmas.
- `ScreenConfig`: the configuration text and how it reads back.
- `ScreenPaths`: result file names and bowtie2 paths.
- `FastqScreen`: the test object as a class, with the constructor,
  `GenConf`, `FindBowtie2Indices` and `MetricsToReport`. The module also holds
  the two parsing loops, `ParseRow` and `ParseDataRows`. Each method is proved
  equal to its specification function. `GenConf` also states the field it
  updates.

The specification functions return `Result` wherever Python can raise, and
are total on every input their callers pass. A few state a precondition that every call meets:
`OrganismPrefix` needs a column count within the header, `Table` needs the
two leading rows, and `Max` and `Min` need a sample. The methods'
postconditions tie them to those functions. The properties themselves are
lemmas about the functions. The first rows of each module's part of the
table below are the functions that model the source. The rows after them are
the lemmas about those functions. Rows marked "proof step" or "example"
support the main lemmas rather than state a property of their own.

## Model

| member | source | states |
|---|---|---|
| FastqScreen.FastqScreenTest.constructor | tests/test_fastqscreen.py:26-51 | the reference directory is `<test dir>/data/reference`; the thread setting is `OMP_NUM_THREADS` when set, else 1; the site prefix is the fixed site root; no configuration has been generated yet |
| FastqScreen.FastqScreenTest.MetricsToReport | tests/test_fastqscreen.py:192-253 | returns exactly the report or the exception the method produces for the given rows, reference, timestamps and memory samples; the `prov` argument never reaches the result because the version row overwrites it |
| FastqScreen.ParseDataRows | tests/test_fastqscreen.py:215-242 | the loop over data rows stops at the first blank row or at the end and yields the table's organisms and first summary, or the first error any row raises |
| FastqScreen.ParseRow | tests/test_fastqscreen.py:220-224 | builds the organism column by column: the first label maps to the reference name, later labels to the float of their cell; a missing cell raises IndexError and a non-numeric one raises ValueError, at the first such column |
| FastqScreen.FastqScreenTest.GenConf | tests/test_fastqscreen.py:298-317 | stores the global section built from the instance's thread setting (the `threads` argument is ignored); returns that section followed by the database section; leaves the other fields unchanged |
| FastqScreen.FastqScreenTest.FindBowtie2Indices | tests/test_fastqscreen.py:264-284 | returns one site-map path per directory entry, in listing order, or KeyError for the first entry whose base name is not in the site map |
| ScreenReport.MetricsReport | tests/test_fastqscreen.py:192-253 | the whole method: StopIteration without a version and a header row, else the table's result, else `max(mem)`'s ValueError on no samples, else the assembled record |
| ScreenReport.Cell | tests/test_fastqscreen.py:224 | `float(row[i])`: IndexError past the end of the row, ValueError carrying the cell when it is not a number |
| ScreenReport.Cells | tests/test_fastqscreen.py:224 | every cell of a row converted by `float`, in column order; the conversions are consulted in Python's order, so the same column raises the same error |
| ScreenReport.CellAt | tests/test_fastqscreen.py:224 | `row[i]` on the converted row: IndexError past its end, else that cell's conversion |
| ScreenReport.OrganismPrefix | tests/test_fastqscreen.py:220-224 | the organism after the first n header columns: header[0] maps to the reference name, each later label to its cell's number, the first failing cell's error otherwise |
| ScreenReport.OrganismOf | tests/test_fastqscreen.py:220-224 | one row's organism: IndexError for an empty header, else the prefix over all header columns |
| ScreenReport.ParseOrganisms | tests/test_fastqscreen.py:215-225 | the organisms of the data rows in order, or the error of the first row that fails |
| ScreenReport.FirstSummary | tests/test_fastqscreen.py:229-242 | on the first organism, in Python's order: the three hit percentages summed (KeyError, TypeError), the 101 bound against `%Unmapped` (AssertionError), then the rate over 100 and the `Library` entry (KeyError) |
| ScreenReport.Get | tests/test_fastqscreen.py:229-242 | `organisms[0][key]`: the stored value, or KeyError naming the key |
| ScreenReport.Add | tests/test_fastqscreen.py:229-235 | Python `+` on two stored values: their sum when both are numbers, TypeError when one is the reference name |
| ScreenReport.FirstRowSummary | tests/test_fastqscreen.py:229-242 | no summary without data rows; else the first row's organism error or that organism's summary |
| ScreenReport.ParseTable | tests/test_fastqscreen.py:215-242 | the loop's outcome: the first row's summary error first, then the organisms of all rows |
| ScreenReport.Table | tests/test_fastqscreen.py:215-218 | the rows the loop visits: from row 2 up to the first blank row or the end |
| ScreenReport.Sample | tests/test_fastqscreen.py:207 | `join(dirname(fastq_name), fastq_name)` |
| ScreenReport.Assemble | tests/test_fastqscreen.py:207-251 | the record: sample, timestamps, organisms, version row, rate and index (absent without data rows), threads and the memory figures |
| ScreenReport.Threads.Text | tests/test_fastqscreen.py:310 | what `str.format` writes for the thread setting: the OMP_NUM_THREADS string as it is, the integer 1 as "1" |
| ScreenReport.TableLength | tests/test_fastqscreen.py:215-218 | the data rows end at the first blank row: every row before it is non-empty, and the row at the returned index, if any, is blank |
| ScreenReport.ReportNeedsVersionAndHeader | tests/test_fastqscreen.py:198-205 | the report raises StopIteration exactly when the version or header row is missing; no later step raises it |
| ScreenReport.MetricsReportDefined | tests/test_fastqscreen.py:192-253 | the method returns a record exactly when the version and header rows exist, every data row parses, the first organism passes its summary and there are memory samples |
| ScreenReport.OrganismOfDefined | tests/test_fastqscreen.py:220-224 | a row yields an organism exactly when the header is non-empty and every column past the first holds a number |
| ScreenReport.OrganismOfContent | tests/test_fastqscreen.py:220-224 | the organism's keys are exactly the header labels; when the first label does not occur again, it maps to the reference base name; every other label whose last occurrence is at column i maps to the float of cell i |
| ScreenReport.CellAtCells | tests/test_fastqscreen.py:224 | reading column i of the converted row is `float(row[i])`: IndexError past the end, ValueError for a non-number, and otherwise that number |
| ScreenReport.OrganismPrefixShape | tests/test_fastqscreen.py:220-224 | after n columns the organism exists exactly when the converted cells 1..n-1 are numbers, and its keys are the first n labels |
| ScreenReport.OrganismPrefixAt | tests/test_fastqscreen.py:220-224 | a label that does not recur later keeps the value written at its own column (dict assignment: the last write wins) |
| ScreenReport.OrganismPrefixError | tests/test_fastqscreen.py:223-224 | the first bad column decides the error; later columns are not looked at |
| ScreenReport.OrganismPrefixAgree | tests/test_fastqscreen.py:220-224 | the organism after n columns depends only on cells 1..n-1 |
| ScreenReport.OrganismPrefixStep | tests/test_fastqscreen.py:223-224 | one pass of the column loop: a numeric cell adds its label with that number; any other cell ends the whole row with that cell's error |
| ScreenReport.ShortRowFails | tests/test_fastqscreen.py:224 | a non-empty row shorter than the header, with numeric cells, raises IndexError |
| ScreenReport.NonNumericCellFails | tests/test_fastqscreen.py:224 | a non-numeric cell at column i, after numeric ones, raises ValueError carrying that cell |
| ScreenReport.ExtraCellsIgnored | tests/test_fastqscreen.py:223-224 | cells beyond the header's width do not change the organism |
| ScreenReport.OrganismNeverStops | tests/test_fastqscreen.py:220-224 | parsing a row never raises StopIteration |
| ScreenReport.OrganismPrefixNeverStops | tests/test_fastqscreen.py:220-224 | if no cell raises StopIteration, neither does any prefix of the organism |
| ScreenReport.ParseOrganismsSingle | tests/test_fastqscreen.py:215-225 | a one-row table whose row parses gives exactly that row's organism |
| ScreenReport.ParseOrganismsOk | tests/test_fastqscreen.py:215-225 | a successful parse gives one organism per data row, in row order, each the organism of its row |
| ScreenReport.ParseOrganismsAllOk | tests/test_fastqscreen.py:215-225 | rows that each parse make the whole row loop succeed |
| ScreenReport.ParseOrganismsDefined | tests/test_fastqscreen.py:215-225 | the row loop succeeds exactly when every data row parses |
| ScreenReport.ParseOrganismsFailedPrefix | tests/test_fastqscreen.py:215-225 | once a prefix of the rows fails, the rows after it cannot change the error |
| ScreenReport.ParseOrganismsNeverStops | tests/test_fastqscreen.py:215-225 | the row loop never raises StopIteration |
| ScreenReport.FirstSummaryOk | tests/test_fastqscreen.py:229-242 | the first organism's summary succeeds exactly when its three percentage columns and `%Unmapped` are numbers, their sum is at most 101, and it has a `Library` entry; the rate is the sum over 100 and the index is the `Library` value |
| ScreenReport.FirstSummaryAssertion | tests/test_fastqscreen.py:235 | AssertionError is raised exactly when the percentages exist and their sum exceeds 101 |
| ScreenReport.ParseTableOk | tests/test_fastqscreen.py:215-242 | a parsed table has one organism per row, each the organism of its row; it has a first summary exactly when the table is non-empty, and that summary is the first organism's rate and library |
| ScreenReport.ParseTableDefined | tests/test_fastqscreen.py:215-242 | the data-row loop raises nothing exactly when every row parses and, if there is a row, the first organism passes its summary |
| ScreenReport.ParseTableStep | tests/test_fastqscreen.py:215-242 | one more row either raises its organism error, raises the first organism's summary error, or appends its organism and sets the summary |
| ScreenReport.ParseTableFailedPrefix | tests/test_fastqscreen.py:215-242 | a failing prefix of the table makes the whole table fail with the same error |
| ScreenReport.ParseTableFirstRow | tests/test_fastqscreen.py:229-242 | the summary of a parsed table depends only on its first row |
| ScreenReport.TableLengthUnique | tests/test_fastqscreen.py:215-218 | any index before which every row is non-empty, and at which the row is blank or missing, is the table length |
| ScreenReport.TableShape | tests/test_fastqscreen.py:215-218 | the table is the run of non-empty rows starting at row 2, followed by a blank row or by the end |
| ScreenReport.TableEndsAt | tests/test_fastqscreen.py:215-218 | a loop that has read non-empty rows 2..k-1 and then sees a blank row at k, or the end, has read exactly the table |
| ScreenReport.TableFailsAt | tests/test_fastqscreen.py:215-242 | a data row whose parse fails, together with the rows before it, fails the whole table, whatever follows |
| ScreenReport.TableStartsWith | tests/test_fastqscreen.py:215-218 | non-blank rows 2 to k are the first rows of the table the loop visits |
| ScreenReport.DataRowStep | tests/test_fastqscreen.py:215-242 | one pass over a non-blank row whose organism and first summary succeed: the rows read so far parse to the previous organisms plus this one, with that summary |
| ScreenReport.DataRowFails | tests/test_fastqscreen.py:215-242 | one pass over a non-blank row that fails: its organism error, or else the first organism's summary error, is the error of the whole table |
| ScreenReport.TableStopsAtBlank | tests/test_fastqscreen.py:217-218 | rows after a blank row are never read |
| ScreenReport.BlankRowEndsTable | tests/test_fastqscreen.py:217-218 | anything after a blank row leaves the report unchanged |
| ScreenReport.FirstRowSummaryNeverStops | tests/test_fastqscreen.py:229-242 | the first-organism summary never raises StopIteration |
| ScreenReport.ReportStages | tests/test_fastqscreen.py:192-253 | a successful report means both rows are present, the table parsed and the memory list is non-empty; the report is assembled from those two results |
| ScreenReport.ReportFromStages | tests/test_fastqscreen.py:192-253 | conversely, if both rows are present, the table parses and the memory summary exists, then the report succeeds with their assembly |
| ScreenReport.ReportFields | tests/test_fastqscreen.py:225-242 | the report's organisms, rate and index are those of the parsed table |
| ScreenReport.ReportOrganisms | tests/test_fastqscreen.py:215-225 | the report's organisms come one per row from row 2 on, in order; each of those rows is non-blank and the organism is the one its row parses to |
| ScreenReport.ReportStopsAtBlankRow | tests/test_fastqscreen.py:215-218 | the report has no more organisms than data rows, and the row after its last organism, if any, is blank |
| ScreenReport.OrganismsOfTable | tests/test_fastqscreen.py:215-225 | the organisms of a parsed table are those of rows 2, 3, ..., each non-blank, and the row after them, if any, is blank |
| ScreenReport.ReportContamination | tests/test_fastqscreen.py:229-242 | rate and index are present exactly when there is an organism; then the first organism passed the sanity bound, the rate is its three percentages summed over 100, and the index is its `Library` value |
| ScreenReport.FirstOrganismFields | tests/test_fastqscreen.py:229-242 | from a parsed table, rate and index are present exactly when there is an organism; then the first organism passed the sanity bound, the rate is its raw sum over 100 and the index is its `Library` value |
| ScreenReport.TableOfFirstRows | tests/test_fastqscreen.py:215-218 | the first three rows hold no table if row 2 is blank, and otherwise a one-row table whose row also leads the full table |
| ScreenReport.ContaminationFromFirstRow | tests/test_fastqscreen.py:229-242 | cutting the rows after the first data row keeps the report successful with the same rate and index |
| ScreenReport.ContaminationIgnoresLaterRows | tests/test_fastqscreen.py:229-242 | two successful reports whose first three rows agree have the same contamination rate, although the source recomputes it on every row |
| ScreenReport.SanityBoundFails | tests/test_fastqscreen.py:235 | a first organism whose mapped and unmapped percentages sum to more than 101 raises AssertionError, whatever the later rows hold |
| ScreenReport.IndexIsReference | tests/test_fastqscreen.py:221-242 | with `Library` as the first header label and not repeated, the screen index is the reference's base name |
| ScreenReport.FirstIndexIsReference | tests/test_fastqscreen.py:221-242 | under such a header, the summary of a parsed non-empty table has the reference's base name as its index |
| ScreenReport.ReportFixedFields | tests/test_fastqscreen.py:207-248 | the version is the first row, not `prov`; the threads and timestamps are copied; a plain file name is its own sample path |
| ScreenReport.ReportMemory | tests/test_fastqscreen.py:249-251 | a successful report had memory samples; it holds their max and min, with the mean between them |
| ScreenReport.ReportEmptyMemory | tests/test_fastqscreen.py:249 | with a table that parses, an empty memory list raises ValueError from `max` |
| ScreenReport.EmptyMemoryFails | tests/test_fastqscreen.py:249 | an empty memory list never produces a report |
| ScreenReport.RateInRange | tests/test_fastqscreen.py:235-239 | with non-negative percentages the normalised rate lies in [0, 1.01] |
| MemStats.Sum | tests/test_fastqscreen.py:251 | `sum(mem)`, from 0 |
| MemStats.MemSummary | tests/test_fastqscreen.py:249-251 | `max`'s ValueError on an empty list, else max, min and sum over the count |
| MemStats.Max | tests/test_fastqscreen.py:249 | the maximum is a sample and bounds all samples from above |
| MemStats.Min | tests/test_fastqscreen.py:250 | the minimum is a sample and bounds all samples from below |
| MemStats.MeanBetween | tests/test_fastqscreen.py:249-251 | the mean lies between the minimum and the maximum |
| MemStats.MeanWithin | tests/test_fastqscreen.py:251 | the mean lies within any bounds that hold for every sample |
| MemStats.SumAtLeast | tests/test_fastqscreen.py:251 | the sum of n samples that are all at least lo is at least n*lo |
| MemStats.SumAtMost | tests/test_fastqscreen.py:251 | the sum of n samples that are all at most hi is at most n*hi |
| MemStats.MemSummaryOrdered | tests/test_fastqscreen.py:249-251 | the memory summary exists exactly when there are samples, and then min <= mean <= max |
| MemStats.ConstantSamples | tests/test_fastqscreen.py:249-251 | constant samples give that constant as max, min and mean |
| MemStats.UnsampledRun | tests/test_fastqscreen.py:122 | the placeholder sample list `[-1]` of an unprofiled run summarises to -1 three times |
| FloatParse.ParseFloat | tests/test_fastqscreen.py:224 | `float(s)` on optional-sign decimal literals, with no value where Python raises ValueError |
| FloatParse.ParseFloatDefined | tests/test_fastqscreen.py:224 | a cell parses as a float exactly when it is a decimal literal: an optional sign, then digits with at most one point |
| FloatParse.ParseUnsignedDefined | tests/test_fastqscreen.py:224 | an unsigned cell parses exactly when it holds only digits and points, at most one point, and at least one digit |
| FloatParse.ParseFloatOfNat | tests/test_fastqscreen.py:224 | the decimal text of a whole number parses back to that number |
| FloatParse.ParseFloatOfFixedPoint | tests/test_fastqscreen.py:224 | a fixed-point literal `w.f` with f padded to its width parses to w + f/10^width |
| FloatParse.ParseUnsignedOfPoint | tests/test_fastqscreen.py:224 | digits, a point and digits parse to the value of the whole and fractional parts |
| FloatParse.ParseFloatOfPoint | tests/test_fastqscreen.py:224 | digits, a point and digits, unsigned, parse as a float to the value of the whole and fractional parts |
| FloatParse.ParseFloatOfUnsigned | tests/test_fastqscreen.py:224 | a cell that starts with a digit parses as its unsigned reading |
| FloatParse.ParseUnsignedOfDigits | tests/test_fastqscreen.py:224 | a non-empty run of digits parses to its decimal value |
| FloatParse.ParseFloatNegative | tests/test_fastqscreen.py:224 | a leading minus negates the parsed value and fails exactly when the rest fails |
| FloatParse.NatTextValue | tests/test_fastqscreen.py:224 | the digits of a whole number have that number as their value |
| FloatParse.PaddedValue | tests/test_fastqscreen.py:224 | zero-padded digits keep their value |
| ScreenConfig.ConfigText | tests/test_fastqscreen.py:298-317 | `_genconf`'s return value: the global section followed by the database section of the reference's base name, its index path and the upper-cased aligner |
| ScreenConfig.GlobalSection | tests/test_fastqscreen.py:307-310 | the stored section: a new line, the indented BOWTIE and THREADS settings, an empty line and the closing indentation |
| ScreenConfig.DatabaseSection | tests/test_fastqscreen.py:312-315 | a new line, the indented DATABASE line with its three tab-separated fields, and the closing indentation |
| ScreenConfig.IndexPath | tests/test_fastqscreen.py:300-303 | the reference itself for bowtie2, else `join(root, reference, bowtie + "_index", basename(reference))` |
| ScreenConfig.IndexPathBowtie2 | tests/test_fastqscreen.py:300-301 | for bowtie2 the index path is the reference unchanged |
| ScreenConfig.IndexPathUnderRoot | tests/test_fastqscreen.py:302-303 | for bowtie 1 with relative parts the index path is `<root>/<reference>/<bowtie>_index/<base name of reference>` |
| ScreenConfig.IndexPathAbsoluteReference | tests/test_fastqscreen.py:302-303 | an absolute reference discards the reference directory (posixpath.join semantics) |
| ScreenConfig.IndexPathOfJoinedReference | tests/test_fastqscreen.py:110-115 | a reference already joined under the reference directory keeps one copy of it when that directory is absolute, and repeats it when it is relative |
| ScreenConfig.IndexPathBasename | tests/test_fastqscreen.py:300-303 | the index path always ends in the reference's base name |
| ScreenConfig.IndexPathKeepsOut | tests/test_fastqscreen.py:302-303 | the index path adds no character except '/', '_' and lower-case letters beyond those in its inputs |
| ScreenConfig.ConfigTextIsLines | tests/test_fastqscreen.py:307-317 | the configuration is seven lines: blank, BOWTIE, THREADS, blank, indentation, DATABASE, indentation |
| ScreenConfig.GlobalSectionLines | tests/test_fastqscreen.py:307-310 | proof step for ConfigTextIsLines: the stored global section is the blank, BOWTIE, THREADS, blank and indentation lines |
| ScreenConfig.DatabaseSectionLines | tests/test_fastqscreen.py:312-315 | proof step for ConfigTextIsLines: the database section is a new line, the DATABASE line and an indentation |
| ScreenConfig.FieldsOfSetting | tests/test_fastqscreen.py:308-309 | an indented `KEY\t\tvalue` line reads back as the key, an empty field and the value |
| ScreenConfig.FieldsOfDatabase | tests/test_fastqscreen.py:313 | the DATABASE line reads back as its four fields |
| ScreenConfig.FieldsOfIndentation | tests/test_fastqscreen.py:310-314 | proof step for LineFields: an indentation-only line reads back as one empty field |
| ScreenConfig.LineFields | tests/test_fastqscreen.py:307-315 | each of the seven lines reads back as the fields of its expected entry |
| ScreenConfig.SplitLines | tests/test_fastqscreen.py:307-317 | splitting the configuration at new lines gives back its seven lines when no value contains a new line or tab |
| ScreenConfig.ReadLines | tests/test_fastqscreen.py:307-317 | reading the seven lines field by field gives the seven expected entries |
| ScreenConfig.ReadConfigText | tests/test_fastqscreen.py:298-317 | for a root, thread setting, reference and bowtie name without tab or new line, the generated configuration reads back as the bowtie name, the instance's thread setting, the reference's base name, the index path and the upper-cased aligner name, each in its own field |
| ScreenConfig.EntriesDirectives | tests/test_fastqscreen.py:307-315 | among the expected entries, BOWTIE, THREADS and DATABASE each head exactly one line, and no other keyword heads any |
| ScreenConfig.OneOfEachDirective | tests/test_fastqscreen.py:298-317 | for a root, thread setting, reference and bowtie name without tab or new line, the generated configuration holds exactly one BOWTIE, one THREADS and one DATABASE directive, at lines 1, 2 and 5, and no other directive |
| ScreenPaths.ResultFileName | tests/test_fastqscreen.py:131-132 | `splitext(basename(fastq))[0] + "_screen.txt"` |
| ScreenPaths.IndexUnder | tests/test_fastqscreen.py:282 | `join(prefix, organism, name, "bowtie2", name)` |
| ScreenPaths.NamedIndexPath | tests/test_fastqscreen.py:282 | the site-map path of one name, or KeyError naming it |
| ScreenPaths.Bowtie2IndexPath | tests/test_fastqscreen.py:281-282 | the path of one directory entry, looked up by its base name |
| ScreenPaths.PathsOfNames | tests/test_fastqscreen.py:280-284 | the paths of the names in order, or the KeyError of the first unknown name |
| ScreenPaths.Bowtie2Paths | tests/test_fastqscreen.py:274-284 | the paths of a whole directory listing, looked up by base name |
| ScreenPaths.ResultFileNameShape | tests/test_fastqscreen.py:131-132 | the result name is the fastq base name with its last extension replaced by `_screen.txt`, and holds no '/' |
| ScreenPaths.ResultFileNameStripsLastExtension | tests/test_fastqscreen.py:131-132 | for `dir/stem.ext`, where the stem holds a character other than '.' and the extension holds neither '.' nor '/', the result name is `stem_screen.txt`; only the last extension goes |
| ScreenPaths.ResultFileNameWithoutExtension | tests/test_fastqscreen.py:131-132 | a base name without a point keeps its whole name before `_screen.txt` |
| ScreenPaths.Names | tests/test_fastqscreen.py:280-281 | one base name per directory entry, in order |
| ScreenPaths.SiteMapComponents | tests/test_fastqscreen.py:274-278 | every site-map key and organism is a non-empty name without '/' |
| ScreenPaths.IndexUnderShape | tests/test_fastqscreen.py:282 | the path is `<prefix>/<organism>/<name>/bowtie2/<name>` and its base name is the reference name |
| ScreenPaths.Bowtie2IndexPathShape | tests/test_fastqscreen.py:281-282 | an entry has a path exactly when its base name is in the site map, and that path is the one above; otherwise KeyError names the base name |
| ScreenPaths.UnknownReferenceRaises | tests/test_fastqscreen.py:274-282 | example: a reference the site map does not know, such as `hg19`, raises KeyError |
| ScreenPaths.PathsOfNamesDefined | tests/test_fastqscreen.py:280-284 | the path list exists exactly when every name is in the site map |
| ScreenPaths.PathsOfNamesOk | tests/test_fastqscreen.py:280-284 | a successful path list has one path per name, each the name's own path |
| ScreenPaths.PathsOfNamesFailedPrefix | tests/test_fastqscreen.py:280-284 | once a prefix of the names fails, later names cannot change the error |
| ScreenPaths.PathsOfNamesFirstMissing | tests/test_fastqscreen.py:280-284 | the error names the first name missing from the site map |
| ScreenPaths.PathsOfNamesStep | tests/test_fastqscreen.py:280-284 | one pass of the listing loop: a known name appends its path; an unknown one fails the whole listing with KeyError naming it |
| ScreenPaths.Bowtie2PathsShape | tests/test_fastqscreen.py:264-284 | the paths exist exactly when every entry is known; then there is one path per entry, in order; otherwise the first unknown entry's KeyError is raised |
| PosixPath.Dirname | tests/test_fastqscreen.py:207 | `posixpath.dirname`: the head up to the last '/', with trailing slashes stripped unless it is all slashes |
| PosixPath.Join | tests/test_fastqscreen.py:282 | `posixpath.join` of two parts: an absolute second part replaces the first; otherwise one '/' goes between, unless the first is empty or ends with '/' |
| PosixPath.Splitext | tests/test_fastqscreen.py:132 | `posixpath.splitext`: split at the last '.' of the last component, unless only dots precede it there |
| PosixPath.Basename | tests/test_fastqscreen.py:195 | the base name holds no '/', is a suffix of the path, and is preceded by '/' when shorter than it |
| PosixPath.BasenameUnique | tests/test_fastqscreen.py:195 | any suffix with those three properties is the base name |
| PosixPath.BasenameOfJoin | tests/test_fastqscreen.py:282 | joining keeps the base name of the last component |
| PosixPath.JoinRelative | tests/test_fastqscreen.py:282 | a relative component is appended after one '/' |
| PosixPath.JoinDirnameOfPlainName | tests/test_fastqscreen.py:207 | a name without '/' has an empty directory, and joining the two gives the name back |
| PosixPath.JoinKeepsOut | tests/test_fastqscreen.py:282 | joining adds no character other than '/' |
| PosixPath.SplitextParts | tests/test_fastqscreen.py:132 | root and extension concatenate to the path; the extension is empty or one point followed by no point and no '/' |
| PosixPath.SplitextHasExtension | tests/test_fastqscreen.py:132 | an extension exists exactly when the last component has a point after some non-point character |
| PosixPath.SplitextOfName | tests/test_fastqscreen.py:132 | `stem.ext` splits into the stem and `.ext` |
| Text.Upper | tests/test_fastqscreen.py:315 | Python 2 `str.upper` on a byte string: a-z become A-Z, every other character is kept |
| Text.UpperFacts | tests/test_fastqscreen.py:315 | upper-casing keeps the length, maps each lower-case ASCII letter to its capital, keeps every other character, and leaves no lower-case letter |
| Text.UpperIdempotent | tests/test_fastqscreen.py:315 | upper-casing twice is upper-casing once |
| Text.UpperKeeps | tests/test_fastqscreen.py:315 | upper-casing introduces no character other than capitals |
| Text.SplitJoinWith | tests/test_fastqscreen.py:307-317 | proof step for ReadConfigText: splitting lines joined by a separator none of them holds gives the lines back |
| Text.SplitPrefix | tests/test_fastqscreen.py:307-317 | proof step for ReadConfigText: a prefix without the separator joins the first piece of the rest |
| Text.SplitCons | tests/test_fastqscreen.py:307-317 | proof step for ReadConfigText: a separator after a separator-free prefix ends the first piece exactly there |
| Text.SplitWhole | tests/test_fastqscreen.py:307-317 | proof step for ReadConfigText: a string without the separator is a single piece |
| Text.TrimSpacesPrefix | tests/test_fastqscreen.py:308-313 | proof step for ReadConfigText: stripping the leading indentation yields the text after it |

## Left out

- Csv tokenisation: rows are given already split at tabs, so csv quoting and escaping are not modelled, nor the errors the csv reader can raise.
- `json.dumps` is not modelled, so neither is the `UnicodeDecodeError` it can raise on a non-UTF-8 reference name (tests/test_fastqscreen.py:253).
- `float()`: only optional-sign decimal literals are modelled. Exponents, `inf`/`nan`, surrounding white space and IEEE rounding are not; values are exact reals.
- The debug `print` of the organism list on every row, and the JSON serialisation of the result, are not modelled. The result is a record whose absent keys are `None`.
- `str.upper` is modelled for ASCII only, as Python 2 does for byte strings.
- Python string concatenation of two percentage values cannot happen: only the first header label holds a string, and the summed labels are distinct. So a string meeting a number is the only `TypeError` modelled.
- Running bowtie, Fastq Screen and `memory_profiler` are parameters, not modelled: the csv rows, the memory samples, the timestamps and the version strings.
- `os.listdir` of the reference directory is a parameter: the listing.
- The directory of the test file and `OMP_NUM_THREADS` are parameters of the constructor.
- The rest of `setUp` is not modelled: the data, program and tmp paths, the download URL, directory creation, and the twoBitToFa download.
- `tearDown` (the CouchDB upload), the downloads of `test_1`, `_fetch_bowtie_indices`, `_bowtie_versions` and `_cleanup_fastq_screen_results` are not modelled; they are only I/O.
- The orchestration of `test_2`/`test_3` around the core is not modelled: temporary files, subprocess calls, `os.path.exists` and `os.remove`, and the growing result list. Only the result-name derivation and the core calls are modelled.
- `ScreenPaths.UnknownReferenceRaises`: only the unknown-key case is stated for the literal site map. The paths of its three known genomes are covered by `ScreenPaths.Bowtie2PathsShape` for any site map, not spelled out for the literal one.
- `ScreenConfig.ReadConfig` is a reader of the generated text written for this model (lines, leading spaces stripped, tab-separated fields). It is not Fastq Screen's own configuration parser, which is not part of this model.

=== FILE: fastq_screen.dfy ===
/** The benchmark's test case object: the state the core reads and writes,
    and the core's loops and assignments as methods, each proved equal to
    the function that specifies it in the modules above. */
module FastqScreen {
  import opened Outcomes
  import opened Text
  import opened PosixPath
  import opened FloatParse
  import opened MemStats
  import opened ScreenReport
  import opened ScreenConfig
  import opened ScreenPaths

  /** Lines 220-224: the organism record of one data row, built column by
      column; a missing cell raises IndexError, a non-numeric one ValueError. */
  method ParseRow(header: seq<string>, row: seq<string>, refName: string) returns (r: Result<Organism>)
    ensures r == OrganismOf(header, row, refName)
  {
    if |header| == 0 {
      return Err(IndexError);
    }
    var organism := map[header[0] := Str(refName)];
    var i := 1;
    while i < |header|
      invariant 1 <= i <= |header|
      invariant OrganismPrefix(header, Cells(row), refName, i) == Ok(organism)
    {
      OrganismPrefixStep(header, row, refName, i, organism);
      if i >= |row| || ParseFloat(row[i]).None? {
        return Err(Cell(row, i).error);
      }
      organism := organism[header[i] := Num(ParseFloat(row[i]).value)];
      i := i + 1;
    }
    return Ok(organism);
  }

  /** Lines 215-242: one organism per data row until a blank row or the
      end, recomputing the first organism's rate and index after every row;
      the first error raised ends the loop. */
  method ParseDataRows(rows: seq<seq<string>>, refName: string) returns (r: Result<Parsed>)
    requires |rows| >= 2
    ensures r == ParseTable(rows[1], Table(rows), refName)
  {
    var header := rows[1];
    var organisms: seq<Organism> := [];
    var first: Option<Summary> := None;
    var k := 2;
    while k < |rows|
      invariant 2 <= k <= |rows|
      invariant [] !in rows[2..k]
      invariant ParseTable(header, rows[2..k], refName) == Ok(Parsed(first, organisms))
    {
      var row := rows[k];
      if row == [] {
        break;
      }
      DataRowStep(rows, refName, k, Parsed(first, organisms));
      DataRowFails(rows, refName, k, Parsed(first, organisms));
      var organism := ParseRow(header, row, refName);
      if organism.Err? {
        return Err(organism.error);
      }
      organisms := organisms + [organism.value];
      var summary := FirstSummary(organisms[0]);
      if summary.Err? {
        return Err(summary.error);
      }
      first := Some(summary.value);
      k := k + 1;
    }
    TableEndsAt(rows, k);
    return Ok(Parsed(first, organisms));
  }

  class FastqScreenTest {
    /** The directory holding one folder per reference genome. */
    var reference: string
    /** The site-specific root of the bowtie2 genome indices. */
    var sitePrefix: string
    /** `OMP_NUM_THREADS` when set, else the integer 1. */
    var fastqThreads: Threads
    /** The global section of the last configuration written; absent until
        the first one is. */
    var config: Option<string>

    /** Lines 26-51, the part the core reads: the reference directory under
        the test's own `data` folder, the thread setting and the site prefix.
        The directory of the test file and the environment are parameters. */
    constructor (testDir: string, ompNumThreads: Option<string>)
      ensures reference == Join(Join(testDir, "data"), "reference")
      ensures sitePrefix == SitePrefix
      ensures fastqThreads == (if ompNumThreads.Some? then EnvThreads(ompNumThreads.value) else DefaultThreads)
      ensures config == None
    {
      reference := Join(Join(testDir, "data"), "reference");
      fastqThreads := if ompNumThreads.Some? then EnvThreads(ompNumThreads.value) else DefaultThreads;
      sitePrefix := SitePrefix;
      config := None;
    }

    /** Lines 298-317: stores the global section and returns it followed by
        the database section. The query and the `threads` argument are never
        read: the thread count comes from the instance. */
    method GenConf(query: string, ref: string, threads: Threads, bowtie: string := "bowtie") returns (text: string)
      modifies this
      ensures reference == old(reference) && sitePrefix == old(sitePrefix) && fastqThreads == old(fastqThreads)
      ensures config == Some(GlobalSection(bowtie, fastqThreads.Text()))
      ensures text == ConfigText(reference, fastqThreads.Text(), ref, bowtie)
    {
      var index: string;
      if bowtie == Bowtie2 {
        index := ref;
      } else {
        index := Join(Join(Join(reference, ref), bowtie + "_index"), Basename(ref));
      }
      config := Some(GlobalSection(bowtie, fastqThreads.Text()));
      var databases := DatabaseSection(Basename(ref), index, Upper(bowtie));
      text := config.value + databases;
    }

    /** Lines 264-284: the bowtie2 index path of every entry of the
        reference directory, in listing order; the first entry the site map
        does not know raises KeyError. The listing is a parameter. */
    method FindBowtie2Indices(entries: seq<string>) returns (r: Result<seq<string>>)
      ensures r == Bowtie2Paths(SiteMap, sitePrefix, entries)
    {
      var names := Names(entries);
      var paths: seq<string> := [];
      var k := 0;
      while k < |names|
        invariant 0 <= k <= |names|
        invariant PathsOfNames(SiteMap, sitePrefix, names[..k]) == Ok(paths)
      {
        var name := names[k];
        PathsOfNamesStep(SiteMap, sitePrefix, names, k, paths);
        if name !in SiteMap {
          return Err(KeyError(name));
        }
        paths := paths + [IndexUnder(sitePrefix, SiteMap[name], name)];
        k := k + 1;
      }
      assert names[..k] == names;
      return Ok(paths);
    }

    /** Lines 192-253: reads the version and header rows, then the data
      rows (see `ParseDataRows`), and finally the thread setting and the
      memory summary. The `prov` argument is stored first and then
      overwritten by the version row. */
    method MetricsToReport(rows: seq<seq<string>>, fastqName: string, ref: string, startTime: string,
                           endTime: string, mem: seq<real>, prov: string) returns (r: Result<RunReport>)
      ensures r == MetricsReport(fastqThreads, rows, fastqName, ref, startTime, endTime, mem)
    {
      var refName := Basename(ref);
      if |rows| < 2 {
        return Err(StopIteration);
      }
      var provenance := prov;
      var screenVersion := rows[0];
      var table := ParseDataRows(rows, refName);
      if table.Err? {
        return Err(table.error);
      }
      var parsed := table.value;
      var contamination := if parsed.first.Some? then Some(parsed.first.value.rate) else None;
      var index := if parsed.first.Some? then Some(parsed.first.value.index) else None;
      if mem == [] {
        ReportEmptyMemory(fastqThreads, rows, fastqName, ref, startTime, endTime);
        return Err(ValueError("max() arg is an empty sequence"));
      }
      var maxMem, minMem := Max(mem), Min(mem);
      var meanMem := Sum(mem) / (|mem| as real);
      ReportFromStages(fastqThreads, rows, fastqName, ref, startTime, endTime, mem, parsed, MemUsage(maxMem, minMem, meanMem));
      return Ok(RunReport(Join(Dirname(fastqName), fastqName), startTime, endTime, parsed.organisms,
                          screenVersion, contamination, index, fastqThreads, maxMem, minMem, meanMem));
    }
  }
}

=== FILE: float_parse.dfy ===
/** Python's `float(s)` on the decimal notation fastq_screen prints:
    an optional sign, digits, and an optional '.' with more digits. */
module FloatParse {
  import opened Outcomes
  import opened Text

  predicate IsDigit(c: char)
  {
    '0' <= c <= '9'
  }

  /** Every character is a decimal digit (read from the end, as the
      digits' value is). */
  predicate AllDigits(s: string)
  {
    s == [] || (IsDigit(s[|s| - 1]) && AllDigits(s[..|s| - 1]))
  }

  lemma {:induction false} AllDigitsAt(s: string)
    ensures AllDigits(s) <==> forall k :: 0 <= k < |s| ==> IsDigit(s[k])
  {
    if s != [] {
      AllDigitsAt(s[..|s| - 1]);
      assert forall k :: 0 <= k < |s| - 1 ==> s[..|s| - 1][k] == s[k];
    }
  }

  /** The number a run of decimal digits denotes, most significant first. */
  function DigitsValue(ds: string): nat
    requires AllDigits(ds)
  {
    if ds == [] then 0 else 10 * DigitsValue(ds[..|ds| - 1]) + (ds[|ds| - 1] as int - '0' as int)
  }

  function Pow10(n: nat): (r: nat)
    ensures r >= 1
  {
    if n == 0 then 1 else 10 * Pow10(n - 1)
  }

  /** The value of `whole.frac`. */
  function Magnitude(whole: string, frac: string): real
    requires AllDigits(whole) && AllDigits(frac)
  {
    DigitsValue(whole) as real + DigitsValue(frac) as real / Pow10(|frac|) as real
  }

  /** An unsigned literal `whole[.frac]` with at least one digit in all. */
  function ParseUnsigned(s: string): Option<real>
  {
    var dot := FirstIndex(s, '.');
    var whole := s[..dot];
    var frac := if dot < |s| then s[dot + 1..] else "";
    if AllDigits(whole) && AllDigits(frac) && |whole| + |frac| > 0
    then Some(Magnitude(whole, frac))
    else None
  }

  /** `float(s)`: None where Python raises ValueError. */
  function ParseFloat(s: string): Option<real>
  {
    match ParseUnsigned(Unsigned(s))
    case None => None
    case Some(v) => Some(if |s| > 0 && s[0] == '-' then -v else v)
  }

  /** The text after an optional leading sign. */
  function Unsigned(s: string): string
  {
    if |s| > 0 && (s[0] == '+' || s[0] == '-') then s[1..] else s
  }

  /** The accepted notation, stated character by character: after the sign
      only digits and dots, at most one dot, and at least one digit. */
  predicate IsDecimalLiteral(s: string)
  {
    var b := Unsigned(s);
    && (forall k :: 0 <= k < |b| ==> IsDigit(b[k]) || b[k] == '.')
    && (forall j, k :: 0 <= j < k < |b| && b[j] == '.' ==> b[k] != '.')
    && (exists k :: 0 <= k < |b| && IsDigit(b[k]))
  }

  lemma ParseUnsignedDefined(b: string)
    ensures ParseUnsigned(b).Some? <==>
      && (forall k :: 0 <= k < |b| ==> IsDigit(b[k]) || b[k] == '.')
      && (forall j, k :: 0 <= j < k < |b| && b[j] == '.' ==> b[k] != '.')
      && (exists k :: 0 <= k < |b| && IsDigit(b[k]))
  {
    var dot := FirstIndex(b, '.');
    var whole := b[..dot];
    var frac := if dot < |b| then b[dot + 1..] else "";
    AllDigitsAt(whole);
    AllDigitsAt(frac);
    assert forall k :: 0 <= k < dot ==> whole[k] == b[k];
    assert forall k :: dot < k < |b| ==> frac[k - dot - 1] == b[k];
    if ParseUnsigned(b).Some? {
      if |whole| > 0 {
        assert IsDigit(b[0]);
      } else {
        assert IsDigit(b[dot + 1]);
      }
    }
    if (forall j, k :: 0 <= j < k < |b| && b[j] == '.' ==> b[k] != '.')
      && (exists k :: 0 <= k < |b| && IsDigit(b[k])) {
      var k :| 0 <= k < |b| && IsDigit(b[k]);
      if k < dot {
        assert whole[k] == b[k];
      } else {
        assert k != dot;
        assert frac[k - dot - 1] == b[k];
      }
    }
  }

  /** `float` accepts exactly the decimal literals described above. */
  lemma ParseFloatDefined(s: string)
    ensures ParseFloat(s).Some? <==> IsDecimalLiteral(s)
  {
    ParseUnsignedDefined(Unsigned(s));
  }

  function DigitChar(d: nat): char
    requires d < 10
  {
    ('0' as int + d) as char
  }

  /** The digits of `f`, zero-padded on the left to exactly `width` places. */
  function Padded(f: nat, width: nat): (ds: string)
    ensures |ds| == width && AllDigits(ds)
  {
    if width == 0 then "" else Padded(f / 10, width - 1) + [DigitChar(f % 10)]
  }

  /** `str(n)` for a natural number. */
  function NatText(n: nat): (ds: string)
    ensures |ds| > 0 && AllDigits(ds)
  {
    if n < 10 then [DigitChar(n)] else NatText(n / 10) + [DigitChar(n % 10)]
  }

  lemma {:induction false} PaddedValue(f: nat, width: nat)
    requires f < Pow10(width)
    ensures DigitsValue(Padded(f, width)) == f
  {
    if width > 0 {
      PaddedValue(f / 10, width - 1);
      var ds := Padded(f, width);
      assert ds[..|ds| - 1] == Padded(f / 10, width - 1);
    }
  }

  lemma {:induction false} NatTextValue(n: nat)
    ensures DigitsValue(NatText(n)) == n
  {
    var ds := NatText(n);
    if n < 10 {
      assert ds[..|ds| - 1] == [];
    } else {
      NatTextValue(n / 10);
      assert ds[..|ds| - 1] == NatText(n / 10);
    }
  }

  lemma NoDot(ds: string)
    requires AllDigits(ds)
    ensures FirstIndex(ds, '.') == |ds|
  {
    AllDigitsAt(ds);
  }

  /** Text that starts with a digit carries no sign. */
  lemma ParseFloatOfUnsigned(u: string)
    requires u != [] && IsDigit(u[0])
    ensures ParseFloat(u) == ParseUnsigned(u)
  {
    assert Unsigned(u) == u;
  }

  /** Reading back a natural number printed in decimal gives the number. */
  lemma ParseFloatOfNat(n: nat)
    ensures ParseFloat(NatText(n)) == Some(n as real)
  {
    var ds := NatText(n);
    NatTextValue(n);
    NoDot(ds);
    AllDigitsAt(ds);
    ParseFloatOfUnsigned(ds);
    ParseUnsignedOfDigits(ds);
  }

  /** A run of digits is read as a whole number. */
  lemma ParseUnsignedOfDigits(ds: string)
    requires AllDigits(ds) && ds != []
    ensures ParseUnsigned(ds) == Some(DigitsValue(ds) as real)
  {
    NoDot(ds);
    assert ds[..|ds|] == ds;
    assert Magnitude(ds, "") == DigitsValue(ds) as real;
  }

  /** The value of `whole.frac` for digit runs `whole` and `frac`. */
  lemma ParseUnsignedOfPoint(whole: string, frac: string)
    requires AllDigits(whole) && AllDigits(frac) && |whole| > 0
    ensures ParseUnsigned(whole + "." + frac) == Some(Magnitude(whole, frac))
  {
    var s := whole + "." + frac;
    NoDot(whole);
    assert s[|whole|] == '.';
    assert forall j :: 0 <= j < |whole| ==> s[j] == whole[j];
    assert FirstIndex(s, '.') == |whole|;
    assert s[..|whole|] == whole;
    assert s[|whole| + 1..] == frac;
  }

  /** Reading back a fixed-point number `w.f` printed with `width` fraction
      digits (fastq_screen prints percentages this way) gives `w + f/10^width`. */
  lemma ParseFloatOfFixedPoint(w: nat, f: nat, width: nat)
    requires f < Pow10(width)
    ensures ParseFloat(NatText(w) + "." + Padded(f, width)) == Some(Magnitude(NatText(w), Padded(f, width)))
    ensures Magnitude(NatText(w), Padded(f, width)) == w as real + f as real / Pow10(width) as real
  {
    NatTextValue(w);
    PaddedValue(f, width);
    ParseFloatOfPoint(NatText(w), Padded(f, width));
    MagnitudeOf(NatText(w), Padded(f, width), w, f, width);
  }

  /** `whole.frac` with a non-empty run of whole digits reads as its magnitude. */
  lemma ParseFloatOfPoint(whole: string, frac: string)
    requires AllDigits(whole) && AllDigits(frac) && |whole| > 0
    ensures ParseFloat(whole + "." + frac) == Some(Magnitude(whole, frac))
  {
    var text := whole + "." + frac;
    ParseUnsignedOfPoint(whole, frac);
    AllDigitsAt(whole);
    assert text[0] == whole[0];
    ParseFloatOfUnsigned(text);
  }

  lemma MagnitudeOf(whole: string, frac: string, w: nat, f: nat, width: nat)
    requires AllDigits(whole) && AllDigits(frac) && |frac| == width
    requires DigitsValue(whole) == w && DigitsValue(frac) == f
    ensures Magnitude(whole, frac) == w as real + f as real / Pow10(width) as real
  {
  }

  /** A leading '-' negates the value. */
  lemma ParseFloatNegative(s: string)
    requires s != [] && s[0] != '+' && s[0] != '-'
    ensures ParseFloat("-" + s) == (match ParseFloat(s) case None => None case Some(v) => Some(-v))
  {
    assert ("-" + s)[1..] == s;
  }
}

=== FILE: mem_stats.dfy ===
/** The memory summary of one run: Python's `max`, `min` and
    `sum(mem)/float(len(mem))` over the sampled resident sizes. */
module MemStats {
  import opened Outcomes

  /** `max(s)`: an element of `s` no element exceeds. */
  function Max(s: seq<real>): (m: real)
    requires |s| > 0
    ensures m in s
    ensures forall x :: x in s ==> x <= m
  {
    if |s| == 1 then s[0]
    else
      var rest := Max(s[1..]);
      assert forall x :: x in s ==> x == s[0] || x in s[1..];
      if s[0] >= rest then s[0] else rest
  }

  /** `min(s)`: an element of `s` no element undercuts. */
  function Min(s: seq<real>): (m: real)
    requires |s| > 0
    ensures m in s
    ensures forall x :: x in s ==> m <= x
  {
    if |s| == 1 then s[0]
    else
      var rest := Min(s[1..]);
      assert forall x :: x in s ==> x == s[0] || x in s[1..];
      if s[0] <= rest then s[0] else rest
  }

  /** `sum(s)`: the samples added up, 0 for none. Python adds from the left,
      this definition from the right; over the reals the value is the same. */
  function Sum(s: seq<real>): real
  {
    if s == [] then 0.0 else s[0] + Sum(s[1..])
  }

  datatype MemUsage = MemUsage(maxMem: real, minMem: real, meanMem: real)

  /** Lines 249-251: `max` comes first, so an empty sample list raises its
      ValueError. */
  function MemSummary(mem: seq<real>): Result<MemUsage>
  {
    if mem == [] then Err(ValueError("max() arg is an empty sequence"))
    else Ok(MemUsage(Max(mem), Min(mem), Sum(mem) / (|mem| as real)))
  }

  /** A sum of samples that are all at least `lo`. */
  lemma {:induction false} SumAtLeast(s: seq<real>, lo: real)
    requires forall x :: x in s ==> lo <= x
    ensures (|s| as real) * lo <= Sum(s)
  {
    if s != [] {
      var rest := s[1..];
      assert s[0] in s;
      assert forall x :: x in rest ==> x in s;
      SumAtLeast(rest, lo);
      var m := |rest| as real;
      assert |s| as real == m + 1.0;
      OneMore(m, lo);
    }
  }

  /** A sum of samples that are all at most `hi`. */
  lemma {:induction false} SumAtMost(s: seq<real>, hi: real)
    requires forall x :: x in s ==> x <= hi
    ensures Sum(s) <= (|s| as real) * hi
  {
    if s != [] {
      var rest := s[1..];
      assert s[0] in s;
      assert forall x :: x in rest ==> x in s;
      SumAtMost(rest, hi);
      var m := |rest| as real;
      assert |s| as real == m + 1.0;
      OneMore(m, hi);
    }
  }

  lemma OneMore(m: real, x: real)
    ensures (m + 1.0) * x == m * x + x
  {
  }

  /** Dividing both sides of `lo <= total <= n * hi` by a positive `n`. */
  lemma DivideBounds(total: real, n: real, lo: real, hi: real)
    requires n > 0.0
    requires n * lo <= total <= n * hi
    ensures lo <= total / n <= hi
  {
    assert total / n * n == total;
  }

  lemma MeanWithin(mem: seq<real>, lo: real, hi: real)
    requires |mem| > 0
    requires forall x :: x in mem ==> lo <= x <= hi
    ensures lo <= Sum(mem) / (|mem| as real) <= hi
  {
    SumAtLeast(mem, lo);
    SumAtMost(mem, hi);
    DivideBounds(Sum(mem), |mem| as real, lo, hi);
  }

  /** The mean lies between the minimum and the maximum. */
  lemma MeanBetween(mem: seq<real>)
    requires |mem| > 0
    ensures Min(mem) <= Sum(mem) / (|mem| as real) <= Max(mem)
  {
    MeanWithin(mem, Min(mem), Max(mem));
  }

  /** The summary exists exactly when there are samples, and then orders
      minimum, mean and maximum. */
  lemma MemSummaryOrdered(mem: seq<real>)
    ensures MemSummary(mem).Ok? <==> mem != []
    ensures MemSummary(mem).Ok? ==>
      MemSummary(mem).value.minMem <= MemSummary(mem).value.meanMem <= MemSummary(mem).value.maxMem
  {
    if mem != [] {
      MeanBetween(mem);
    }
  }

  /** When every sample is `c` (the unsampled run's `[-1]` among them),
      all three figures are `c`. */
  lemma {:induction false} ConstantSamples(mem: seq<real>, c: real)
    requires |mem| > 0
    requires forall x :: x in mem ==> x == c
    ensures MemSummary(mem) == Ok(MemUsage(c, c, c))
  {
    MeanWithin(mem, c, c);
  }

  /** The sentinel list `[-1]` of a run without profiling. */
  lemma UnsampledRun()
    ensures MemSummary([-1.0]) == Ok(MemUsage(-1.0, -1.0, -1.0))
  {
    ConstantSamples([-1.0], -1.0);
  }
}

=== FILE: outcomes.dfy ===
/** Results of the modelled Python code: a value, or the exception it raises. */
module Outcomes {

  /** The Python exceptions the modelled code can raise. */
  datatype PyError =
    | StopIteration            // reader.next() past the end of the table
    | IndexError               // a list index out of range
    | ValueError(text: string) // float() of a non-numeric cell, max() of an empty list
    | KeyError(key: string)    // a missing dictionary key
    | TypeError                // a string added to a number
    | AssertionError           // a failed assert statement

  datatype Option<+T> = None | Some(value: T)

  /** Either a value or the exception raised instead; usable with `:-`. */
  datatype Result<+T> = Ok(value: T) | Err(error: PyError) {
    predicate IsFailure() {
      Err?
    }

    function PropagateFailure<U>(): Result<U>
      requires Err?
    {
      Err(error)
    }

    function Extract(): T
      requires Ok?
    {
      value
    }
  }
}

=== FILE: posix_path.dfy ===
/** The parts of Python 2's `posixpath` module the benchmark relies on. */
module PosixPath {
  import opened Text

  /** `os.path.basename`: everything after the last '/'. */
  function Basename(p: string): (r: string)
    ensures '/' !in r
    ensures |r| <= |p| && r == p[|p| - |r|..]
    ensures |r| < |p| ==> p[|p| - |r| - 1] == '/'
  {
    var i := LastIndex(p, '/') + 1;
    assert forall k :: 0 <= k < |p| - i ==> p[i..][k] == p[i + k];
    p[i..]
  }

  /** The basename contract has exactly one solution: the longest
      slash-free suffix. */
  lemma BasenameUnique(p: string, s: string)
    requires '/' !in s
    requires |s| <= |p| && s == p[|p| - |s|..]
    requires |s| < |p| ==> p[|p| - |s| - 1] == '/'
    ensures Basename(p) == s
  {
  }

  predicate AllSlashes(s: string)
  {
    forall k :: 0 <= k < |s| ==> s[k] == '/'
  }

  /** `head.rstrip('/')`. */
  function RStripSlashes(s: string): string
  {
    if s != [] && s[|s| - 1] == '/' then RStripSlashes(s[..|s| - 1]) else s
  }

  /** `os.path.dirname`: the head up to the last '/', with trailing slashes
      removed unless the head is nothing but slashes. */
  function Dirname(p: string): string
  {
    var head := p[..LastIndex(p, '/') + 1];
    if head != [] && !AllSlashes(head) then RStripSlashes(head) else head
  }

  /** `os.path.join(a, b)`: an absolute `b` replaces `a`; otherwise a '/' is
      inserted unless `a` is empty or already ends with one. */
  function Join(a: string, b: string): string
  {
    if b != [] && b[0] == '/' then b
    else if a == [] || a[|a| - 1] == '/' then a + b
    else a + "/" + b
  }

  /** Appending to a directory prefix keeps the basename of the appended part. */
  lemma BasenameOfAppend(x: string, b: string)
    requires x == [] || x[|x| - 1] == '/'
    ensures Basename(x + b) == Basename(b)
  {
    var j := x + b;
    var s := Basename(b);
    assert |s| <= |j| && s == j[|j| - |s|..] by {
      SuffixOfAppend(x, b, |s|);
    }
    assert |s| < |j| ==> j[|j| - |s| - 1] == '/' by {
      if |s| < |j| {
        if |s| < |b| {
          assert j[|x| + (|b| - |s| - 1)] == b[|b| - |s| - 1];
        } else {
          assert j[|x| - 1] == x[|x| - 1];
        }
      }
    }
    BasenameUnique(j, s);
  }

  lemma SuffixOfAppend(x: string, b: string, n: nat)
    requires n <= |b|
    ensures (x + b)[|x| + |b| - n..] == b[|b| - n..]
  {
  }

  /** Joining never changes the basename of the last component. */
  lemma BasenameOfJoin(a: string, b: string)
    ensures Basename(Join(a, b)) == Basename(b)
  {
    if b != [] && b[0] == '/' {
      assert Join(a, b) == b;
    } else if a == [] || a[|a| - 1] == '/' {
      assert Join(a, b) == a + b;
      BasenameOfAppend(a, b);
    } else {
      var x := a + "/";
      assert Join(a, b) == x + b;
      BasenameOfAppend(x, b);
    }
  }

  /** A name without '/' has an empty directory part, so joining the two gives
      the name back. */
  lemma JoinDirnameOfPlainName(n: string)
    requires '/' !in n
    ensures Dirname(n) == ""
    ensures Join(Dirname(n), n) == n
  {
    assert LastIndex(n, '/') == -1;
  }

  /** Join introduces no character but '/'. */
  lemma JoinKeepsOut(a: string, b: string, c: char)
    requires c != '/' && c !in a && c !in b
    ensures c !in Join(a, b)
  {
  }

  /** Joining a relative, non-empty component onto a directory that does not
      end in '/' inserts exactly one separator. */
  lemma JoinRelative(a: string, b: string)
    requires b == [] || b[0] != '/'
    requires a != [] && a[|a| - 1] != '/'
    ensures Join(a, b) == a + "/" + b
  {
  }

  predicate HasNonDot(s: string)
  {
    exists k :: 0 <= k < |s| && s[k] != '.'
  }

  /** `os.path.splitext`: split at the last '.' of the last component, unless
      every character before that dot in the component is a dot too. */
  function Splitext(p: string): (string, string)
  {
    var sepIndex := LastIndex(p, '/');
    var dotIndex := LastIndex(p, '.');
    if dotIndex > sepIndex && HasNonDot(p[sepIndex + 1..dotIndex])
    then (p[..dotIndex], p[dotIndex..])
    else (p, "")
  }

  /** The two parts rebuild the path, and the extension is empty or a single
      '.'-led suffix without further dots or slashes. */
  lemma SplitextParts(p: string)
    ensures Splitext(p).0 + Splitext(p).1 == p
    ensures Splitext(p).1 == []
         || (Splitext(p).1[0] == '.' && '.' !in Splitext(p).1[1..] && '/' !in Splitext(p).1)
  {
    var sepIndex := LastIndex(p, '/');
    var dotIndex := LastIndex(p, '.');
    if dotIndex > sepIndex && HasNonDot(p[sepIndex + 1..dotIndex]) {
      SplitAtDot(p, sepIndex, dotIndex);
    }
  }

  /** Cutting at the last dot, after the last slash. */
  lemma SplitAtDot(p: string, sepIndex: int, dotIndex: int)
    requires sepIndex == LastIndex(p, '/') && dotIndex == LastIndex(p, '.')
    requires sepIndex < dotIndex
    ensures p[..dotIndex] + p[dotIndex..] == p
    ensures p[dotIndex..][0] == '.' && '.' !in p[dotIndex..][1..] && '/' !in p[dotIndex..]
  {
    assert p[..dotIndex] + p[dotIndex..] == p;
    ExtensionShape(p[dotIndex..]);
  }

  /** A suffix that starts at the last dot, after the last slash. */
  lemma ExtensionShape(ext: string)
    requires ext != [] && ext[0] == '.'
    requires forall j :: 0 < j < |ext| ==> ext[j] != '.' && ext[j] != '/'
    ensures '.' !in ext[1..] && '/' !in ext
  {
    assert forall k :: 0 <= k < |ext[1..]| ==> ext[1..][k] == ext[k + 1];
  }

  /** There is an extension exactly when the last component holds a dot
      preceded, inside that component, by a character that is not a dot. */
  lemma SplitextHasExtension(p: string)
    ensures Splitext(p).1 != [] <==>
      exists i, j :: LastIndex(p, '/') < i < j < |p| && p[i] != '.' && p[j] == '.'
  {
    if Splitext(p).1 != [] {
      ExtensionWitness(p);
    }
    if exists i, j :: LastIndex(p, '/') < i < j < |p| && p[i] != '.' && p[j] == '.' {
      var i, j :| LastIndex(p, '/') < i < j < |p| && p[i] != '.' && p[j] == '.';
      ExtensionFromWitness(p, i, j);
    }
  }

  lemma ExtensionWitness(p: string)
    requires Splitext(p).1 != []
    ensures exists i, j :: LastIndex(p, '/') < i < j < |p| && p[i] != '.' && p[j] == '.'
  {
    var sepIndex := LastIndex(p, '/');
    var dotIndex := LastIndex(p, '.');
    assert dotIndex > sepIndex && HasNonDot(p[sepIndex + 1..dotIndex]);
    var i := NonDotWitness(p, sepIndex, dotIndex);
    assert sepIndex < i < dotIndex < |p| && p[i] != '.' && p[dotIndex] == '.';
  }

  lemma NonDotWitness(p: string, lo: int, hi: int) returns (i: int)
    requires -1 <= lo < hi <= |p| && HasNonDot(p[lo + 1..hi])
    ensures lo < i < hi && p[i] != '.'
  {
    var seg := p[lo + 1..hi];
    var k :| 0 <= k < |seg| && seg[k] != '.';
    assert seg[k] == p[lo + 1 + k];
    i := lo + 1 + k;
  }

  lemma ExtensionFromWitness(p: string, i: int, j: int)
    requires LastIndex(p, '/') < i < j < |p| && p[i] != '.' && p[j] == '.'
    ensures Splitext(p).1 != []
  {
    var sepIndex := LastIndex(p, '/');
    var dotIndex := LastIndex(p, '.');
    LastIndexAtLeast(p, '.', j);
    NonDotBetween(p, sepIndex, dotIndex, i);
    assert Splitext(p).1 == p[dotIndex..];
  }

  lemma LastIndexAtLeast(s: string, c: char, j: nat)
    requires j < |s| && s[j] == c
    ensures j <= LastIndex(s, c)
  {
  }

  lemma NonDotBetween(p: string, lo: int, hi: int, i: int)
    requires -1 <= lo < i < hi <= |p| && p[i] != '.'
    ensures HasNonDot(p[lo + 1..hi])
  {
    assert p[lo + 1..hi][i - lo - 1] == p[i];
  }

  /** A file name `stem.e` whose stem is not all dots loses exactly `.e`. */
  lemma SplitextOfName(stem: string, e: string)
    requires '/' !in stem && '/' !in e && '.' !in e
    requires HasNonDot(stem)
    ensures Splitext(stem + "." + e) == (stem, "." + e)
  {
    var p := stem + "." + e;
    assert p[|stem|] == '.';
    assert forall j :: |stem| < j < |p| ==> p[j] == e[j - |stem| - 1];
    LastIndexUnique(p, '.', |stem|);
    assert forall j :: -1 < j < |p| ==> p[j] != '/' by {
      forall j | -1 < j < |p| ensures p[j] != '/' {
        if j < |stem| { assert p[j] == stem[j]; }
      }
    }
    LastIndexUnique(p, '/', -1);
    assert p[0..|stem|] == stem;
    assert p[..|stem|] == stem && p[|stem|..] == "." + e;
  }
}

=== FILE: screen_config.dfy ===
/** The fastq_screen configuration text the harness writes before each run
    (`_genconf`): a global section naming the aligner and the thread count,
    then one DATABASE directive for the reference under test. */
module ScreenConfig {
  import opened Text
  import opened PosixPath

  /** The aligner name that switches the index path to the reference itself. */
  const Bowtie2 := "bowtie2"

  /** Lines 307-310: the aligner and the thread count. The `\n` escape and
      the literal line break that follow the thread count leave one empty
      line, and the closing indentation stays behind. */
  function GlobalSection(bowtie: string, threads: string): string
  {
    "\n    BOWTIE\t\t" + bowtie + "\n    THREADS\t\t" + threads + "\n\n    "
  }

  /** Lines 312-315: the database directive, its three fields separated by tabs. */
  function DatabaseSection(shortName: string, fullPath: string, variant: string): string
  {
    "\n    DATABASE\t" + shortName + "\t" + fullPath + "\t" + variant + "\n    "
  }

  /** Lines 300-303: bowtie2 indices are named by the reference path itself;
      any other aligner's index sits in `<root>/<reference>/<bowtie>_index/`
      under the reference's basename. */
  function IndexPath(root: string, reference: string, bowtie: string): string
  {
    if bowtie == Bowtie2 then reference
    else Join(Join(Join(root, reference), bowtie + "_index"), Basename(reference))
  }

  /** What `_genconf` returns: the global section, with the instance's
      thread setting, followed by the database section. */
  function ConfigText(root: string, threads: string, reference: string, bowtie: string): string
  {
    GlobalSection(bowtie, threads)
      + DatabaseSection(Basename(reference), IndexPath(root, reference, bowtie), Upper(bowtie))
  }

  // ---------------------------------------------------------------------
  // Reading the text back, as a line-and-tab oriented reader would

  /** The tab-separated fields of one line once its indentation is gone. */
  function Fields(line: string): (fields: seq<string>)
    ensures fields != []
  {
    Split(TrimSpaces(line), '\t')
  }

  /** The fields of every line of a configuration text. */
  function ReadConfig(text: string): (entries: seq<seq<string>>)
    ensures |entries| == |Split(text, '\n')|
  {
    var lines := Split(text, '\n');
    seq(|lines|, k requires 0 <= k < |lines| => Fields(lines[k]))
  }

  /** The positions of the entries that open with the given directive keyword. */
  function DirectiveLines(entries: seq<seq<string>>, keyword: string): set<int>
  {
    set k | 0 <= k < |entries| && entries[k] != [] && entries[k][0] == keyword
  }

  /** A value that fits on one line and in one field. */
  predicate Plain(s: string)
  {
    '\n' !in s && '\t' !in s
  }

  // ---------------------------------------------------------------------
  // Properties

  /** The bowtie2 branch passes the reference through untouched. */
  lemma IndexPathBowtie2(root: string, reference: string)
    ensures IndexPath(root, reference, Bowtie2) == reference
  {
  }

  /** For any other aligner, a relative reference lands under the root:
      `<root>/<reference>/<bowtie>_index/<basename>`. */
  lemma IndexPathUnderRoot(root: string, reference: string, bowtie: string)
    requires bowtie != Bowtie2
    requires root != [] && root[|root| - 1] != '/'
    requires reference != [] && reference[0] != '/' && reference[|reference| - 1] != '/'
    requires bowtie == [] || bowtie[0] != '/'
    ensures IndexPath(root, reference, bowtie)
         == root + "/" + reference + "/" + bowtie + "_index/" + Basename(reference)
  {
    var idx := bowtie + "_index";
    var base := Basename(reference);
    JoinRelative(root, reference);
    var a := root + "/" + reference;
    assert a[|a| - 1] == reference[|reference| - 1];
    JoinRelative(a, idx);
    var b := a + "/" + idx;
    assert b[|b| - 1] == 'x';
    assert base == [] || base[0] != '/';
    JoinRelative(b, base);
  }

  /** A reference that starts with a slash discards the root, which is why
      the reference should be given relative to it. */
  lemma IndexPathAbsoluteReference(root: string, reference: string, bowtie: string)
    requires bowtie != Bowtie2
    requires reference != [] && reference[0] == '/'
    ensures IndexPath(root, reference, bowtie)
         == Join(Join(reference, bowtie + "_index"), Basename(reference))
  {
  }

  /** The callers pass `join(root, name)` as the reference. Under an
      absolute root that path replaces the root; under a relative one the
      root appears twice. */
  lemma IndexPathOfJoinedReference(root: string, name: string, bowtie: string)
    requires bowtie != Bowtie2
    requires root != [] && root[|root| - 1] != '/'
    requires name != [] && name[0] != '/'
    ensures root[0] == '/' ==>
      IndexPath(root, Join(root, name), bowtie)
        == Join(Join(root + "/" + name, bowtie + "_index"), Basename(name))
    ensures root[0] != '/' ==>
      IndexPath(root, Join(root, name), bowtie)
        == Join(Join(root + "/" + root + "/" + name, bowtie + "_index"), Basename(name))
  {
    var ref := Join(root, name);
    JoinRelative(root, name);
    BasenameOfJoin(root, name);
    assert IndexPath(root, ref, bowtie) == Join(Join(Join(root, ref), bowtie + "_index"), Basename(name));
    if root[0] == '/' {
      assert ref[0] == root[0];
    } else {
      JoinRelative(root, ref);
      DoubledRoot(root, name);
    }
  }

  lemma DoubledRoot(root: string, name: string)
    ensures root + "/" + (root + "/" + name) == root + "/" + root + "/" + name
  {
  }

  /** The DATABASE short name is the basename of the index path too. */
  lemma IndexPathBasename(root: string, reference: string, bowtie: string)
    ensures Basename(IndexPath(root, reference, bowtie)) == Basename(reference)
  {
    if bowtie != Bowtie2 {
      var base := Basename(reference);
      BasenameOfJoin(Join(Join(root, reference), bowtie + "_index"), base);
      BasenameUnique(base, base);
    }
  }

  /** A separator that is not '/' stays out of the index path when it is
      out of every input. */
  lemma IndexPathKeepsOut(root: string, reference: string, bowtie: string, c: char)
    requires c != '/' && c != '_' && !('a' <= c <= 'z')
    requires c !in root && c !in reference && c !in bowtie
    ensures c !in IndexPath(root, reference, bowtie)
  {
    if bowtie != Bowtie2 {
      var idx := bowtie + "_index";
      assert c !in idx;
      var base := Basename(reference);
      assert c !in base;
      JoinKeepsOut(root, reference, c);
      JoinKeepsOut(Join(root, reference), idx, c);
      JoinKeepsOut(Join(Join(root, reference), idx), base, c);
    }
  }

  /** The seven lines of the text, in order, from the values filled in. */
  function Lines(bowtie: string, threads: string, shortName: string, fullPath: string, variant: string): seq<string>
  {
    [ "",
      "    BOWTIE\t\t" + bowtie,
      "    THREADS\t\t" + threads,
      "",
      "    ",
      "    DATABASE\t" + shortName + "\t" + fullPath + "\t" + variant,
      "    " ]
  }

  /** Seven pieces joined by line breaks, written out. */
  lemma JoinSeven(l0: string, l1: string, l2: string, l3: string, l4: string, l5: string, l6: string)
    ensures JoinWith([l0, l1, l2, l3, l4, l5, l6], '\n')
         == l0 + "\n" + (l1 + "\n" + (l2 + "\n" + (l3 + "\n" + (l4 + "\n" + (l5 + "\n" + l6)))))
  {
    var ls := [l0, l1, l2, l3, l4, l5, l6];
    var j6 := l6;
    assert JoinWith(ls[6..], '\n') == j6 by { assert ls[6..] == [l6]; }
    var j5 := l5 + "\n" + j6;
    assert JoinWith(ls[5..], '\n') == j5 by { assert ls[5..][1..] == ls[6..]; }
    var j4 := l4 + "\n" + j5;
    assert JoinWith(ls[4..], '\n') == j4 by { assert ls[4..][1..] == ls[5..]; }
    var j3 := l3 + "\n" + j4;
    assert JoinWith(ls[3..], '\n') == j3 by { assert ls[3..][1..] == ls[4..]; }
    var j2 := l2 + "\n" + j3;
    assert JoinWith(ls[2..], '\n') == j2 by { assert ls[2..][1..] == ls[3..]; }
    var j1 := l1 + "\n" + j2;
    assert JoinWith(ls[1..], '\n') == j1 by { assert ls[1..][1..] == ls[2..]; }
    assert JoinWith(ls, '\n') == l0 + "\n" + j1;
  }

  /** The global section, line by line. */
  lemma GlobalSectionLines(bowtie: string, threads: string)
    ensures GlobalSection(bowtie, threads)
         == "" + "\n" + ("    BOWTIE\t\t" + bowtie) + "\n" + ("    THREADS\t\t" + threads) + "\n" + "" + "\n" + "    "
  {
  }

  /** The database section, line by line. */
  lemma DatabaseSectionLines(shortName: string, fullPath: string, variant: string)
    ensures DatabaseSection(shortName, fullPath, variant)
         == "\n" + ("    DATABASE\t" + shortName + "\t" + fullPath + "\t" + variant) + "\n" + "    "
  {
  }

  /** Regrouping seven pieces and their separators. */
  lemma Regroup(l0: string, l1: string, l2: string, l3: string, l4: string, l5: string, l6: string, nl: string)
    ensures (l0 + nl + l1 + nl + l2 + nl + l3 + nl + l4) + (nl + l5 + nl + l6)
         == l0 + nl + (l1 + nl + (l2 + nl + (l3 + nl + (l4 + nl + (l5 + nl + l6)))))
  {
  }

  /** The text is its seven lines joined by line breaks. */
  lemma ConfigTextIsLines(root: string, threads: string, reference: string, bowtie: string)
    ensures ConfigText(root, threads, reference, bowtie)
         == JoinWith(Lines(bowtie, threads, Basename(reference), IndexPath(root, reference, bowtie), Upper(bowtie)), '\n')
  {
    var shortName, path, variant := Basename(reference), IndexPath(root, reference, bowtie), Upper(bowtie);
    var ls := Lines(bowtie, threads, shortName, path, variant);
    JoinSeven(ls[0], ls[1], ls[2], ls[3], ls[4], ls[5], ls[6]);
    GlobalSectionLines(bowtie, threads);
    DatabaseSectionLines(shortName, path, variant);
    Regroup(ls[0], ls[1], ls[2], ls[3], ls[4], ls[5], ls[6], "\n");
  }

  /** Three tab-free pieces after a keyword split into the keyword and the pieces. */
  lemma SplitFields(keyword: string, a: string, b: string, c: string)
    requires '\t' !in keyword && '\t' !in a && '\t' !in b && '\t' !in c
    ensures Split(keyword + "\t" + a + "\t" + b + "\t" + c, '\t') == [keyword, a, b, c]
  {
    var last := b + ['\t'] + c;
    var rest := a + ['\t'] + last;
    SplitWhole(c, '\t');
    SplitCons(b, c, '\t');
    SplitCons(a, last, '\t');
    SplitCons(keyword, rest, '\t');
    TabJoined(keyword, a, b, c);
  }

  lemma TabJoined(keyword: string, a: string, b: string, c: string)
    ensures keyword + "\t" + a + "\t" + b + "\t" + c == keyword + ['\t'] + (a + ['\t'] + (b + ['\t'] + c))
  {
  }

  /** A setting line: the keyword, an empty field between the two tabs, the value. */
  lemma FieldsOfSetting(keyword: string, value: string)
    requires keyword != [] && keyword[0] != ' ' && '\t' !in keyword && '\t' !in value
    ensures Fields("    " + keyword + "\t\t" + value) == [keyword, "", value]
  {
    var rest := keyword + "\t\t" + value;
    assert "    " + keyword + "\t\t" + value == "    " + rest;
    TrimSpacesPrefix("    ", rest);
    SplitWhole(value, '\t');
    SplitCons("", value, '\t');
    assert "" + ['\t'] + value == "\t" + value;
    SplitCons(keyword, "\t" + value, '\t');
    assert keyword + ['\t'] + ("\t" + value) == rest;
  }

  /** The database line: the keyword and its three fields. */
  lemma FieldsOfDatabase(shortName: string, fullPath: string, variant: string)
    requires '\t' !in shortName && '\t' !in fullPath && '\t' !in variant
    ensures Fields("    DATABASE\t" + shortName + "\t" + fullPath + "\t" + variant)
         == ["DATABASE", shortName, fullPath, variant]
  {
    var rest := "DATABASE" + "\t" + shortName + "\t" + fullPath + "\t" + variant;
    assert "    DATABASE\t" + shortName + "\t" + fullPath + "\t" + variant == "    " + rest;
    TrimSpacesPrefix("    ", rest);
    SplitFields("DATABASE", shortName, fullPath, variant);
  }

  /** A line of indentation only has one empty field. */
  lemma FieldsOfIndentation()
    ensures Fields("    ") == [""]
  {
    assert "    " == "    " + "";
    TrimSpacesPrefix("    ", "");
  }

  /** No line break inside a line: splitting the joined text gives the lines back. */
  lemma SplitLines(bowtie: string, threads: string, shortName: string, fullPath: string, variant: string)
    requires Plain(bowtie) && Plain(threads) && Plain(shortName) && Plain(fullPath) && Plain(variant)
    ensures Split(JoinWith(Lines(bowtie, threads, shortName, fullPath, variant), '\n'), '\n')
         == Lines(bowtie, threads, shortName, fullPath, variant)
  {
    var ls := Lines(bowtie, threads, shortName, fullPath, variant);
    forall k | 0 <= k < |ls| ensures '\n' !in ls[k] {
      if k == 1 {
        assert ls[1] == "    BOWTIE\t\t" + bowtie;
      } else if k == 2 {
        assert ls[2] == "    THREADS\t\t" + threads;
      } else if k == 5 {
        assert ls[5] == "    DATABASE\t" + shortName + "\t" + fullPath + "\t" + variant;
      }
    }
    SplitJoinWith(ls, '\n');
  }

  /** The seven lines read back field by field. */
  lemma ReadLines(bowtie: string, threads: string, shortName: string, fullPath: string, variant: string)
    requires Plain(bowtie) && Plain(threads) && Plain(shortName) && Plain(fullPath) && Plain(variant)
    ensures ReadConfig(JoinWith(Lines(bowtie, threads, shortName, fullPath, variant), '\n'))
         == Entries(bowtie, threads, shortName, fullPath, variant)
  {
    var ls := Lines(bowtie, threads, shortName, fullPath, variant);
    var es := Entries(bowtie, threads, shortName, fullPath, variant);
    SplitLines(bowtie, threads, shortName, fullPath, variant);
    var entries := ReadConfig(JoinWith(ls, '\n'));
    forall k | 0 <= k < 7
      ensures entries[k] == es[k]
    {
      LineFields(bowtie, threads, shortName, fullPath, variant, k);
    }
  }

  /** Each of the seven lines has the fields of its entry. */
  lemma LineFields(bowtie: string, threads: string, shortName: string, fullPath: string, variant: string, k: nat)
    requires Plain(bowtie) && Plain(threads) && Plain(shortName) && Plain(fullPath) && Plain(variant)
    requires k < 7
    ensures Fields(Lines(bowtie, threads, shortName, fullPath, variant)[k])
         == Entries(bowtie, threads, shortName, fullPath, variant)[k]
  {
    var ls := Lines(bowtie, threads, shortName, fullPath, variant);
    if k == 0 || k == 3 {
      assert ls[k] == "";
    } else if k == 1 {
      assert ls[1] == "    " + "BOWTIE" + "\t\t" + bowtie;
      FieldsOfSetting("BOWTIE", bowtie);
    } else if k == 2 {
      assert ls[2] == "    " + "THREADS" + "\t\t" + threads;
      FieldsOfSetting("THREADS", threads);
    } else if k == 5 {
      FieldsOfDatabase(shortName, fullPath, variant);
    } else {
      FieldsOfIndentation();
    }
  }

  /** Under its documented conditions the text reads back as seven lines:
      an empty one, BOWTIE with the aligner as given, THREADS with the
      thread setting, two blank ones, DATABASE with the short name, the
      index path and the upper-cased aligner, and a blank one. */
  lemma ReadConfigText(root: string, threads: string, reference: string, bowtie: string)
    requires Plain(root) && Plain(threads) && Plain(reference) && Plain(bowtie)
    ensures ReadConfig(ConfigText(root, threads, reference, bowtie))
         == Entries(bowtie, threads, Basename(reference), IndexPath(root, reference, bowtie), Upper(bowtie))
  {
    IndexPathKeepsOut(root, reference, bowtie, '\n');
    IndexPathKeepsOut(root, reference, bowtie, '\t');
    UpperKeeps(bowtie, '\n');
    UpperKeeps(bowtie, '\t');
    ConfigTextIsLines(root, threads, reference, bowtie);
    ReadLines(bowtie, threads, Basename(reference), IndexPath(root, reference, bowtie), Upper(bowtie));
  }

  /** The entries the text reads back as, from the values filled in. */
  function Entries(bowtie: string, threads: string, shortName: string, fullPath: string, variant: string): seq<seq<string>>
  {
    [[""], ["BOWTIE", "", bowtie], ["THREADS", "", threads], [""], [""],
     ["DATABASE", shortName, fullPath, variant], [""]]
  }

  /** Where each keyword opens an entry. */
  lemma EntriesDirectives(bowtie: string, threads: string, shortName: string, fullPath: string, variant: string,
                          keyword: string)
    requires keyword != ""
    ensures DirectiveLines(Entries(bowtie, threads, shortName, fullPath, variant), keyword)
         == (if keyword == "BOWTIE" then {1} else if keyword == "THREADS" then {2}
             else if keyword == "DATABASE" then {5} else {})
  {
    var es := Entries(bowtie, threads, shortName, fullPath, variant);
    var heads := ["", "BOWTIE", "THREADS", "", "", "DATABASE", ""];
    forall k | 0 <= k < |es| ensures es[k] != [] && es[k][0] == heads[k] { }
  }

  /** Exactly one DATABASE directive, one BOWTIE and one THREADS, each on
      its own line, and no other directive. */
  lemma OneOfEachDirective(root: string, threads: string, reference: string, bowtie: string, keyword: string)
    requires Plain(root) && Plain(threads) && Plain(reference) && Plain(bowtie)
    requires keyword != ""
    ensures DirectiveLines(ReadConfig(ConfigText(root, threads, reference, bowtie)), keyword)
         == (if keyword == "BOWTIE" then {1} else if keyword == "THREADS" then {2}
             else if keyword == "DATABASE" then {5} else {})
  {
    ReadConfigText(root, threads, reference, bowtie);
    EntriesDirectives(bowtie, threads, Basename(reference), IndexPath(root, reference, bowtie), Upper(bowtie), keyword);
  }
}

=== FILE: screen_paths.dfy ===
/** The two path derivations around a fastq_screen run: the name of the
    result table it leaves for a fastq file, and where the bowtie2 indices
    of the site's reference genomes live. */
module ScreenPaths {
  import opened Outcomes
  import opened PosixPath

  /** The suffix fastq_screen appends to the stem of the fastq file name. */
  const ScreenSuffix := "_screen.txt"

  /** Lines 131-132: the result table is named after the fastq file's
      basename with its last extension replaced. */
  function ResultFileName(fastq: string): string
  {
    Splitext(Basename(fastq)).0 + ScreenSuffix
  }

  /** Line 51: the site-specific directory the genome folders sit under. */
  const SitePrefix := "/proj/a2010002/nobackup/biodata/genomes/"

  /** Lines 274-278: reference names mapped to the site's organism folders. */
  const SiteMap: map<string, string> := map["dm3" := "Dmelanogaster", "eschColi_K12" := "Ecoli", "phiX" := "phiX174"]

  /** Line 281: the name each directory entry is looked up under. */
  function Names(entries: seq<string>): (names: seq<string>)
    ensures |names| == |entries|
    ensures forall k :: 0 <= k < |entries| ==> names[k] == Basename(entries[k])
  {
    seq(|entries|, k requires 0 <= k < |entries| => Basename(entries[k]))
  }

  /** Line 282 for one name: `<prefix>/<organism>/<name>/bowtie2/<name>`,
      or KeyError when the site map has no organism folder for it. */
  function NamedIndexPath(siteMap: map<string, string>, sitePrefix: string, name: string): Result<string>
  {
    if name !in siteMap then Err(KeyError(name))
    else Ok(IndexUnder(sitePrefix, siteMap[name], name))
  }

  /** Lines 281-282 for one directory entry. */
  function Bowtie2IndexPath(siteMap: map<string, string>, sitePrefix: string, entry: string): Result<string>
  {
    NamedIndexPath(siteMap, sitePrefix, Basename(entry))
  }

  /** `os.path.join(prefix, organism, name, "bowtie2", name)`. */
  function IndexUnder(sitePrefix: string, organism: string, name: string): string
  {
    Join(Join(Join(Join(sitePrefix, organism), name), "bowtie2"), name)
  }

  /** The loop at lines 280-282 over the names, in order; the first name
      without an organism folder raises. */
  function PathsOfNames(siteMap: map<string, string>, sitePrefix: string, names: seq<string>): Result<seq<string>>
  {
    if names == [] then Ok([])
    else
      var init :- PathsOfNames(siteMap, sitePrefix, names[..|names| - 1]);
      var path :- NamedIndexPath(siteMap, sitePrefix, names[|names| - 1]);
      Ok(init + [path])
  }

  /** Lines 274-284: the paths of a whole directory listing. */
  function Bowtie2Paths(siteMap: map<string, string>, sitePrefix: string, entries: seq<string>): Result<seq<string>>
  {
    PathsOfNames(siteMap, sitePrefix, Names(entries))
  }

  // ---------------------------------------------------------------------
  // The result file name

  /** The name is the basename with its extension, if any, replaced: the
      removed part is empty or a single dot-led extension. */
  lemma ResultFileNameShape(fastq: string)
    ensures exists ext :: Basename(fastq) == Splitext(Basename(fastq)).0 + ext
                       && (ext == [] || (ext[0] == '.' && '.' !in ext[1..]))
    ensures ResultFileName(fastq) == Splitext(Basename(fastq)).0 + ScreenSuffix
    ensures '/' !in ResultFileName(fastq)
  {
    var base := Basename(fastq);
    SplitextParts(base);
    var ext := Splitext(base).1;
    assert base == Splitext(base).0 + ext;
    assert forall k :: 0 <= k < |Splitext(base).0| ==> Splitext(base).0[k] == base[k];
  }

  /** Only the last extension goes: `reads.fastq.gz` gives
      `reads.fastq_screen.txt`, whatever directory the file is in. */
  lemma ResultFileNameStripsLastExtension(dir: string, stem: string, ext: string)
    requires dir == [] || dir[|dir| - 1] == '/'
    requires '/' !in stem && '/' !in ext && '.' !in ext
    requires HasNonDot(stem)
    ensures ResultFileName(dir + stem + "." + ext) == stem + ScreenSuffix
  {
    var name := stem + "." + ext;
    assert dir + stem + "." + ext == dir + name;
    BasenameOfAppend(dir, name);
    assert '/' !in name;
    BasenameUnique(name, name);
    SplitextOfName(stem, ext);
  }

  /** A basename without any dot keeps its whole self as the stem. */
  lemma ResultFileNameWithoutExtension(fastq: string)
    requires '.' !in Basename(fastq)
    ensures ResultFileName(fastq) == Basename(fastq) + ScreenSuffix
  {
    var base := Basename(fastq);
    SplitextParts(base);
    SplitextHasExtension(base);
    assert Splitext(base).1 == [];
    assert Splitext(base).0 + [] == base;
  }

  // ---------------------------------------------------------------------
  // The bowtie2 index paths

  /** Every mapped name and organism folder is a single non-empty path component. */
  predicate Components(siteMap: map<string, string>)
  {
    forall name | name in siteMap :: name != [] && '/' !in name && siteMap[name] != [] && '/' !in siteMap[name]
  }

  lemma SiteMapComponents()
    ensures Components(SiteMap)
  {
  }

  /** The index path is the organism folder, then the name, `bowtie2` and
      the name again; its basename is the name. */
  lemma IndexUnderShape(sitePrefix: string, organism: string, name: string)
    requires organism != [] && '/' !in organism
    requires name != [] && '/' !in name
    ensures IndexUnder(sitePrefix, organism, name) == Join(sitePrefix, organism) + "/" + name + "/bowtie2/" + name
    ensures Basename(IndexUnder(sitePrefix, organism, name)) == name
  {
    var a := Join(sitePrefix, organism);
    assert a != [] && a[|a| - 1] == organism[|organism| - 1];
    JoinRelative(a, name);
    var b := a + "/" + name;
    assert b[|b| - 1] == name[|name| - 1];
    JoinRelative(b, "bowtie2");
    var c := b + "/" + "bowtie2";
    assert c[|c| - 1] == '2';
    JoinRelative(c, name);
    assert c + "/" + name == a + "/" + name + "/bowtie2/" + name;
    BasenameOfJoin(Join(Join(a, name), "bowtie2"), name);
    BasenameUnique(name, name);
  }

  /** A name has an index path exactly when the map knows it; otherwise
      the lookup raises KeyError with the name. */
  lemma Bowtie2IndexPathShape(siteMap: map<string, string>, sitePrefix: string, entry: string)
    requires Components(siteMap)
    ensures Bowtie2IndexPath(siteMap, sitePrefix, entry).Ok? <==> Basename(entry) in siteMap
    ensures Bowtie2IndexPath(siteMap, sitePrefix, entry).Err? ==>
      Bowtie2IndexPath(siteMap, sitePrefix, entry) == Err(KeyError(Basename(entry)))
    ensures Bowtie2IndexPath(siteMap, sitePrefix, entry).Ok? ==>
      && Bowtie2IndexPath(siteMap, sitePrefix, entry).value
         == Join(sitePrefix, siteMap[Basename(entry)]) + "/" + Basename(entry) + "/bowtie2/" + Basename(entry)
      && Basename(Bowtie2IndexPath(siteMap, sitePrefix, entry).value) == Basename(entry)
  {
    var name := Basename(entry);
    if name in siteMap {
      IndexUnderShape(sitePrefix, siteMap[name], name);
    }
  }

  /** A name the site does not know, such as the human reference, raises KeyError. */
  lemma UnknownReferenceRaises(sitePrefix: string)
    ensures Bowtie2IndexPath(SiteMap, sitePrefix, "hg19") == Err(KeyError("hg19"))
  {
    BasenameUnique("hg19", "hg19");
    assert "hg19" !in SiteMap;
  }

  /** The names map exactly when every one is known. */
  lemma {:induction false} PathsOfNamesDefined(siteMap: map<string, string>, sitePrefix: string, names: seq<string>)
    ensures PathsOfNames(siteMap, sitePrefix, names).Ok? <==> forall k :: 0 <= k < |names| ==> names[k] in siteMap
  {
    if names != [] {
      var init := names[..|names| - 1];
      PathsOfNamesDefined(siteMap, sitePrefix, init);
      assert forall k :: 0 <= k < |init| ==> init[k] == names[k];
      if PathsOfNames(siteMap, sitePrefix, init).Err? {
        var k :| 0 <= k < |init| && init[k] !in siteMap;
        assert names[k] !in siteMap;
      }
    }
  }

  /** Mapped names give one path per name, in order. */
  lemma {:induction false} PathsOfNamesOk(siteMap: map<string, string>, sitePrefix: string, names: seq<string>)
    requires PathsOfNames(siteMap, sitePrefix, names).Ok?
    ensures |PathsOfNames(siteMap, sitePrefix, names).value| == |names|
    ensures forall k :: 0 <= k < |names| ==>
      NamedIndexPath(siteMap, sitePrefix, names[k]) == Ok(PathsOfNames(siteMap, sitePrefix, names).value[k])
  {
    if names != [] {
      var init := names[..|names| - 1];
      PathsOfNamesOk(siteMap, sitePrefix, init);
      assert forall k :: 0 <= k < |init| ==> init[k] == names[k];
    }
  }

  /** A failing prefix of the names makes the whole loop fail the same way. */
  lemma {:induction false} PathsOfNamesFailedPrefix(siteMap: map<string, string>, sitePrefix: string,
                                                    names: seq<string>, n: nat)
    requires n <= |names|
    requires PathsOfNames(siteMap, sitePrefix, names[..n]).Err?
    ensures PathsOfNames(siteMap, sitePrefix, names) == PathsOfNames(siteMap, sitePrefix, names[..n])
  {
    if n < |names| {
      assert names[..|names| - 1][..n] == names[..n];
      PathsOfNamesFailedPrefix(siteMap, sitePrefix, names[..|names| - 1], n);
    } else {
      assert names[..n] == names;
    }
  }

  /** One turn of the loop at lines 280-282: a known name extends the
      paths of the prefix by its index path, an unknown one makes the whole
      loop raise KeyError for it. */
  lemma PathsOfNamesStep(siteMap: map<string, string>, sitePrefix: string, names: seq<string>,
                         k: nat, paths: seq<string>)
    requires k < |names|
    requires PathsOfNames(siteMap, sitePrefix, names[..k]) == Ok(paths)
    ensures names[k] in siteMap ==>
      PathsOfNames(siteMap, sitePrefix, names[..k + 1]) == Ok(paths + [IndexUnder(sitePrefix, siteMap[names[k]], names[k])])
    ensures names[k] !in siteMap ==> PathsOfNames(siteMap, sitePrefix, names) == Err(KeyError(names[k]))
  {
    var next := names[..k + 1];
    assert next[..k] == names[..k];
    if names[k] !in siteMap {
      PathsOfNamesFailedPrefix(siteMap, sitePrefix, names, k + 1);
    }
  }

  /** The first name the map does not know decides the KeyError. */
  lemma {:induction false} PathsOfNamesFirstMissing(siteMap: map<string, string>, sitePrefix: string,
                                                    names: seq<string>, k: nat)
    requires k < |names|
    requires forall j :: 0 <= j < k ==> names[j] in siteMap
    requires names[k] !in siteMap
    ensures PathsOfNames(siteMap, sitePrefix, names) == Err(KeyError(names[k]))
  {
    var init := names[..|names| - 1];
    if k == |names| - 1 {
      PathsOfNamesDefined(siteMap, sitePrefix, init);
      assert forall j :: 0 <= j < |init| ==> init[j] == names[j];
    } else {
      assert init[k] == names[k];
      PathsOfNamesFirstMissing(siteMap, sitePrefix, init, k);
    }
  }

  /** A listing maps exactly when the site knows every entry's name; each
      path is then that entry's index path, in listing order; otherwise the
      first unknown name raises KeyError. */
  lemma Bowtie2PathsShape(siteMap: map<string, string>, sitePrefix: string, entries: seq<string>)
    ensures Bowtie2Paths(siteMap, sitePrefix, entries).Ok? <==>
      forall k :: 0 <= k < |entries| ==> Basename(entries[k]) in siteMap
    ensures Bowtie2Paths(siteMap, sitePrefix, entries).Ok? ==>
      && |Bowtie2Paths(siteMap, sitePrefix, entries).value| == |entries|
      && forall k :: 0 <= k < |entries| ==>
           Bowtie2IndexPath(siteMap, sitePrefix, entries[k]) == Ok(Bowtie2Paths(siteMap, sitePrefix, entries).value[k])
    ensures forall k ::
      (0 <= k < |entries| && Basename(entries[k]) !in siteMap
       && forall j :: 0 <= j < k ==> Basename(entries[j]) in siteMap)
      ==> Bowtie2Paths(siteMap, sitePrefix, entries) == Err(KeyError(Basename(entries[k])))
  {
    var names := Names(entries);
    PathsOfNamesDefined(siteMap, sitePrefix, names);
    if PathsOfNames(siteMap, sitePrefix, names).Ok? {
      PathsOfNamesOk(siteMap, sitePrefix, names);
    }
    forall k | 0 <= k < |entries| && Basename(entries[k]) !in siteMap
      && (forall j :: 0 <= j < k ==> Basename(entries[j]) in siteMap)
      ensures Bowtie2Paths(siteMap, sitePrefix, entries) == Err(KeyError(Basename(entries[k])))
    {
      PathsOfNamesFirstMissing(siteMap, sitePrefix, names, k);
    }
  }
}

=== FILE: screen_report.dfy ===
/** What `_fastq_screen_metrics_to_json` computes from fastq_screen's
    tab-separated result table: the organism records, the contamination rate
    taken from the first organism, and the run record around them. The csv
    rows are given as values; the method that walks them in a loop is
    `FastqScreen.FastqScreenTest.MetricsToReport`. */
module ScreenReport {
  import opened Outcomes
  import opened PosixPath
  import opened FloatParse
  import opened MemStats

  /** A value in an organism record: the library name, or a number. */
  datatype Value = Str(text: string) | Num(num: real)

  /** One organism: header label to value, as the Python dict holds it. */
  type Organism = map<string, Value>

  /** `self.fastq_threads`: the OMP_NUM_THREADS string, or the integer 1. */
  datatype Threads = DefaultThreads | EnvThreads(setting: string) {
    /** What `str.format` writes for it. */
    function Text(): string
    {
      match this
      case DefaultThreads => "1"
      case EnvThreads(s) => s
    }
  }

  /** The two values derived from the first organism. */
  datatype Summary = Summary(rate: real, index: Value)

  /** The `data` dict the method serialises; keys that may be missing are Options. */
  datatype RunReport = RunReport(
    sample: string,
    beginTimestamp: string,
    endTimestamp: string,
    organisms: seq<Organism>,
    fastqScreenVersion: seq<string>,
    contaminationRate: Option<real>,
    fastqScreenIndex: Option<Value>,
    threads: Threads,
    maxMem: real,
    minMem: real,
    meanMem: real)

  const OneHitOneLibrary := "%One_hit_one_library"
  const MultipleHitsOneLibrary := "%Multiple_hits_one_library"
  const OneHitMultipleLibraries := "%One_hit_multiple_libraries"
  const Unmapped := "%Unmapped"
  const Library := "Library"

  /** `float(row[i])`: IndexError past the end of the row, ValueError when
      the cell is not a number. */
  function Cell(row: seq<string>, i: nat): Result<real>
  {
    if i >= |row| then Err(IndexError)
    else match ParseFloat(row[i])
      case None => Err(ValueError(row[i]))
      case Some(v) => Ok(v)
  }

  predicate CellOk(row: seq<string>, i: nat)
  {
    i < |row| && ParseFloat(row[i]).Some?
  }

  /** Every cell of a row converted by `float`, in column order. Python
      converts lazily, column by column; since `float` has no effect but its
      result, converting up front and consulting the conversions in the same
      order raises the same error at the same column. */
  function Cells(row: seq<string>): seq<Result<real>>
  {
    seq(|row|, k requires 0 <= k < |row| => Cell(row, k))
  }

  /** Column `i` of the converted row; indexing past its end raises IndexError. */
  function CellAt(cells: seq<Result<real>>, i: nat): Result<real>
  {
    if i < |cells| then cells[i] else Err(IndexError)
  }

  /** The organism once the first `n` header columns are filled in: column 0
      names the reference, every later column takes its cell's number. */
  function OrganismPrefix(header: seq<string>, cells: seq<Result<real>>, refName: string, n: nat): Result<Organism>
    requires 1 <= n <= |header|
  {
    if n == 1 then Ok(map[header[0] := Str(refName)])
    else
      var o :- OrganismPrefix(header, cells, refName, n - 1);
      var v :- CellAt(cells, n - 1);
      Ok(o[header[n - 1] := Num(v)])
  }

  /** The organism record of one data row (lines 220-224). */
  function OrganismOf(header: seq<string>, row: seq<string>, refName: string): Result<Organism>
  {
    if |header| == 0 then Err(IndexError) else OrganismPrefix(header, Cells(row), refName, |header|)
  }

  /** The organisms of the data rows, in order; the first failing row decides the error. */
  function ParseOrganisms(header: seq<string>, table: seq<seq<string>>, refName: string): Result<seq<Organism>>
  {
    if table == [] then Ok([])
    else
      var init :- ParseOrganisms(header, table[..|table| - 1], refName);
      var o :- OrganismOf(header, table[|table| - 1], refName);
      Ok(init + [o])
  }

  /** `o[key]`. */
  function Get(o: Organism, key: string): Result<Value>
  {
    if key in o then Ok(o[key]) else Err(KeyError(key))
  }

  /** Python `x + y` on two stored values. A string meets a number only when
      one of the summed columns is header[0]; two strings never meet, because
      the summed keys are distinct and only header[0] holds a string. */
  function Add(x: Value, y: Value): Result<real>
  {
    if x.Num? && y.Num? then Ok(x.num + y.num) else Err(TypeError)
  }

  /** Lines 229-242 on the first organism, in Python's evaluation order:
      the three hit percentages summed, the sanity bound against
      `%Unmapped`, the rate rescaled to [0, 1], and the `Library` entry. */
  function FirstSummary(o: Organism): Result<Summary>
  {
    var a :- Get(o, OneHitOneLibrary);
    var b :- Get(o, MultipleHitsOneLibrary);
    var ab :- Add(a, b);
    var c :- Get(o, OneHitMultipleLibraries);
    var raw :- Add(Num(ab), c);
    var u :- Get(o, Unmapped);
    var total :- Add(Num(raw), u);
    if total > 101.0 then Err(AssertionError)
    else
      var index :- Get(o, Library);
      Ok(Summary(raw / 100.0, index))
  }

  /** How many rows come before the first blank one (all, when none is blank). */
  function TableLength(rows: seq<seq<string>>): (n: nat)
    ensures n <= |rows|
    ensures forall i :: 0 <= i < n ==> rows[i] != []
    ensures n < |rows| ==> rows[n] == []
  {
    if rows == [] || rows[0] == [] then 0 else 1 + TableLength(rows[1..])
  }

  /** The data rows the loop at lines 215-218 visits: those after the version
      and header rows, up to the first blank row or the end. */
  function Table(rows: seq<seq<string>>): seq<seq<string>>
    requires |rows| >= 2
  {
    rows[2..2 + TableLength(rows[2..])]
  }

  /** Line 207: `os.path.join(os.path.dirname(fastq_name), fastq_name)`. */
  function Sample(fastqName: string): string
  {
    Join(Dirname(fastqName), fastqName)
  }

  /** The first organism's summary, or None without data rows. */
  function FirstRowSummary(header: seq<string>, table: seq<seq<string>>, refName: string): Result<Option<Summary>>
  {
    if table == [] then Ok(None)
    else
      var o :- OrganismOf(header, table[0], refName);
      var s :- FirstSummary(o);
      Ok(Some(s))
  }

  /** What the loop at lines 215-242 leaves behind. */
  datatype Parsed = Parsed(first: Option<Summary>, organisms: seq<Organism>)

  /** The loop over the data rows: the first row and its summary, then the
      later rows in order. The summary would fail on the first iteration if
      at all, since later iterations repeat it on the same organism. */
  function ParseTable(header: seq<string>, table: seq<seq<string>>, refName: string): Result<Parsed>
  {
    var first :- FirstRowSummary(header, table, refName);
    var organisms :- ParseOrganisms(header, table, refName);
    Ok(Parsed(first, organisms))
  }

  /** The record the method returns once every step has succeeded. */
  function Assemble(threads: Threads, version: seq<string>, fastqName: string, startTime: string,
                    endTime: string, parsed: Parsed, usage: MemUsage): RunReport
  {
    RunReport(Sample(fastqName), startTime, endTime, parsed.organisms, version,
              if parsed.first.Some? then Some(parsed.first.value.rate) else None,
              if parsed.first.Some? then Some(parsed.first.value.index) else None,
              threads, usage.maxMem, usage.minMem, usage.meanMem)
  }

  /** Everything `_fastq_screen_metrics_to_json` returns or raises, in
      Python's error order: a missing version or header row; then the data
      rows; then `max(mem)`. */
  function MetricsReport(threads: Threads, rows: seq<seq<string>>, fastqName: string, ref: string,
                         startTime: string, endTime: string, mem: seq<real>): Result<RunReport>
  {
    if |rows| < 2 then Err(StopIteration)
    else
      var parsed :- ParseTable(rows[1], Table(rows), Basename(ref));
      var usage :- MemSummary(mem);
      Ok(Assemble(threads, rows[0], fastqName, startTime, endTime, parsed, usage))
  }

  // ---------------------------------------------------------------------
  // One organism

  /** Reading a converted cell is `float(row[i])`, IndexError included. */
  lemma CellAtCells(row: seq<string>, i: nat)
    ensures CellAt(Cells(row), i) == Cell(row, i)
    ensures CellAt(Cells(row), i).Ok? <==> CellOk(row, i)
    ensures CellOk(row, i) ==> CellAt(Cells(row), i).value == ParseFloat(row[i]).value
  {
  }

  /** The organism exists exactly when every cell past the first is a
      number; its keys are the header labels. */
  lemma {:induction false} OrganismPrefixShape(header: seq<string>, cells: seq<Result<real>>, refName: string, n: nat)
    requires 1 <= n <= |header|
    ensures OrganismPrefix(header, cells, refName, n).Ok? <==> forall i :: 1 <= i < n ==> CellAt(cells, i).Ok?
    ensures OrganismPrefix(header, cells, refName, n).Ok? ==>
      OrganismPrefix(header, cells, refName, n).value.Keys == set i | 0 <= i < n :: header[i]
  {
    if n > 1 {
      OrganismPrefixShape(header, cells, refName, n - 1);
      if OrganismPrefix(header, cells, refName, n).Ok? {
        assert (set i | 0 <= i < n :: header[i]) == (set i | 0 <= i < n - 1 :: header[i]) + {header[n - 1]};
      } else if OrganismPrefix(header, cells, refName, n - 1).Err? {
        var i :| 1 <= i < n - 1 && !CellAt(cells, i).Ok?;
      } else {
        assert !CellAt(cells, n - 1).Ok?;
      }
    }
  }

  /** The value a label ends up with: the last column carrying it wins, as in
      the Python dict; column 0 holds the reference name, others their number. */
  lemma {:induction false} OrganismPrefixAt(header: seq<string>, cells: seq<Result<real>>, refName: string, n: nat, i: nat)
    requires i < n <= |header|
    requires OrganismPrefix(header, cells, refName, n).Ok?
    requires header[i] !in header[i + 1..n]
    ensures header[i] in OrganismPrefix(header, cells, refName, n).value
         && (i > 0 ==> CellAt(cells, i).Ok?)
         && OrganismPrefix(header, cells, refName, n).value[header[i]]
            == (if i == 0 then Str(refName) else Num(CellAt(cells, i).value))
  {
    if n > 1 {
      if i < n - 1 {
        assert header[n - 1] == header[i + 1..n][n - 2 - i];
        assert header[i + 1..n - 1] == header[i + 1..n][..n - 2 - i];
        OrganismPrefixAt(header, cells, refName, n - 1, i);
      }
    }
  }

  /** The first failing cell decides the error. */
  lemma {:induction false} OrganismPrefixError(header: seq<string>, cells: seq<Result<real>>, refName: string, n: nat, i: nat)
    requires 1 <= i < n <= |header|
    requires forall j :: 1 <= j < i ==> CellAt(cells, j).Ok?
    requires CellAt(cells, i).Err?
    ensures OrganismPrefix(header, cells, refName, n) == Err(CellAt(cells, i).error)
  {
    if n - 1 == i {
      OrganismPrefixShape(header, cells, refName, i);
    } else {
      OrganismPrefixError(header, cells, refName, n - 1, i);
    }
  }

  /** Only the cells below `n` are read: conversions that agree there give
      the same organism. */
  lemma {:induction false} OrganismPrefixAgree(header: seq<string>, cells: seq<Result<real>>, cells': seq<Result<real>>,
                                               refName: string, n: nat)
    requires 1 <= n <= |header|
    requires forall i :: 1 <= i < n ==> CellAt(cells, i) == CellAt(cells', i)
    ensures OrganismPrefix(header, cells, refName, n) == OrganismPrefix(header, cells', refName, n)
  {
    if n > 1 {
      OrganismPrefixAgree(header, cells, cells', refName, n - 1);
    }
  }

  /** One pass of the loop at lines 223-224 over column `i`: a number
      extends the organism, anything else ends the row with that cell's error. */
  lemma OrganismPrefixStep(header: seq<string>, row: seq<string>, refName: string, i: nat, organism: Organism)
    requires 1 <= i < |header|
    requires OrganismPrefix(header, Cells(row), refName, i) == Ok(organism)
    ensures CellOk(row, i) ==>
      OrganismPrefix(header, Cells(row), refName, i + 1) == Ok(organism[header[i] := Num(ParseFloat(row[i]).value)])
    ensures !CellOk(row, i) ==> OrganismOf(header, row, refName) == Err(Cell(row, i).error)
  {
    CellAtCells(row, i);
    if !CellOk(row, i) {
      OrganismPrefixShape(header, Cells(row), refName, i);
      OrganismPrefixError(header, Cells(row), refName, |header|, i);
    }
  }

  /** Lines 220-224 succeed exactly when the header is not empty and every
      cell from index 1 up to the header's length is a number. */
  lemma OrganismOfDefined(header: seq<string>, row: seq<string>, refName: string)
    ensures OrganismOf(header, row, refName).Ok? <==>
      |header| > 0 && forall i :: 1 <= i < |header| ==> CellOk(row, i)
  {
    if |header| > 0 {
      OrganismPrefixShape(header, Cells(row), refName, |header|);
      forall i | 1 <= i < |header|
        ensures CellAt(Cells(row), i).Ok? <==> CellOk(row, i)
      {
        CellAtCells(row, i);
      }
    }
  }

  /** The content of an organism: its keys are the header labels; the first
      label maps to the reference name, never to the row's own first cell;
      every later label maps to its cell's number (the last column wins where
      a label repeats). */
  lemma OrganismOfContent(header: seq<string>, row: seq<string>, refName: string)
    requires OrganismOf(header, row, refName).Ok?
    ensures |header| > 0
    ensures OrganismOf(header, row, refName).value.Keys == set i | 0 <= i < |header| :: header[i]
    ensures header[0] !in header[1..] ==>
      header[0] in OrganismOf(header, row, refName).value
      && OrganismOf(header, row, refName).value[header[0]] == Str(refName)
    ensures forall i :: 1 <= i < |header| && header[i] !in header[i + 1..] ==>
      CellOk(row, i) && header[i] in OrganismOf(header, row, refName).value
      && OrganismOf(header, row, refName).value[header[i]] == Num(ParseFloat(row[i]).value)
  {
    var cells := Cells(row);
    OrganismPrefixShape(header, cells, refName, |header|);
    if header[0] !in header[1..] {
      OrganismPrefixAt(header, cells, refName, |header|, 0);
    }
    forall i | 1 <= i < |header| && header[i] !in header[i + 1..]
      ensures CellOk(row, i) && header[i] in OrganismOf(header, row, refName).value
        && OrganismOf(header, row, refName).value[header[i]] == Num(ParseFloat(row[i]).value)
    {
      OrganismPrefixAt(header, cells, refName, |header|, i);
      CellAtCells(row, i);
    }
  }

  /** A data row shorter than the header, whose cells are numbers as far as
      they go, raises IndexError. */
  lemma ShortRowFails(header: seq<string>, row: seq<string>, refName: string)
    requires 1 <= |row| < |header|
    requires forall j :: 1 <= j < |row| ==> CellOk(row, j)
    ensures OrganismOf(header, row, refName) == Err(IndexError)
  {
    forall j | 1 <= j < |row| ensures CellAt(Cells(row), j).Ok? {
      CellAtCells(row, j);
    }
    OrganismPrefixError(header, Cells(row), refName, |header|, |row|);
  }

  /** A cell that is not a number, after numeric cells, raises ValueError
      with that cell's text. */
  lemma NonNumericCellFails(header: seq<string>, row: seq<string>, refName: string, i: nat)
    requires 1 <= i < |header| && i < |row|
    requires forall j :: 1 <= j < i ==> CellOk(row, j)
    requires ParseFloat(row[i]).None?
    ensures OrganismOf(header, row, refName) == Err(ValueError(row[i]))
  {
    forall j | 1 <= j < i ensures CellAt(Cells(row), j).Ok? {
      CellAtCells(row, j);
    }
    CellAtCells(row, i);
    OrganismPrefixError(header, Cells(row), refName, |header|, i);
  }

  /** Cells beyond the header's length are never read. */
  lemma ExtraCellsIgnored(header: seq<string>, row: seq<string>, extra: seq<string>, refName: string)
    requires |header| <= |row|
    ensures OrganismOf(header, row + extra, refName) == OrganismOf(header, row, refName)
  {
    if |header| > 0 {
      forall i | 1 <= i < |header|
        ensures CellAt(Cells(row + extra), i) == CellAt(Cells(row), i)
      {
        CellAtCells(row + extra, i);
        CellAtCells(row, i);
        assert (row + extra)[i] == row[i];
      }
      OrganismPrefixAgree(header, Cells(row + extra), Cells(row), refName, |header|);
    }
  }

  // ---------------------------------------------------------------------
  // All data rows

  /** The organisms are the rows' organisms, one per row, in order. */
  lemma {:induction false} ParseOrganismsOk(header: seq<string>, table: seq<seq<string>>, refName: string)
    requires ParseOrganisms(header, table, refName).Ok?
    ensures |ParseOrganisms(header, table, refName).value| == |table|
    ensures forall j :: 0 <= j < |table| ==>
      OrganismOf(header, table[j], refName) == Ok(ParseOrganisms(header, table, refName).value[j])
  {
    if table != [] {
      var init := table[..|table| - 1];
      ParseOrganismsOk(header, init, refName);
      forall j | 0 <= j < |table| - 1 ensures table[j] == init[j] { }
    }
  }

  /** Rows that each parse make the whole loop succeed. */
  lemma {:induction false} ParseOrganismsAllOk(header: seq<string>, table: seq<seq<string>>, refName: string)
    requires forall j :: 0 <= j < |table| ==> OrganismOf(header, table[j], refName).Ok?
    ensures ParseOrganisms(header, table, refName).Ok?
  {
    if table != [] {
      var init := table[..|table| - 1];
      forall j | 0 <= j < |init| ensures OrganismOf(header, init[j], refName).Ok? {
        assert init[j] == table[j];
      }
      ParseOrganismsAllOk(header, init, refName);
      assert OrganismOf(header, table[|table| - 1], refName).Ok?;
    }
  }

  /** The rows parse exactly when each of them does. */
  lemma ParseOrganismsDefined(header: seq<string>, table: seq<seq<string>>, refName: string)
    ensures ParseOrganisms(header, table, refName).Ok?
        <==> forall j :: 0 <= j < |table| ==> OrganismOf(header, table[j], refName).Ok?
  {
    if forall j :: 0 <= j < |table| ==> OrganismOf(header, table[j], refName).Ok? {
      ParseOrganismsAllOk(header, table, refName);
    }
    if ParseOrganisms(header, table, refName).Ok? {
      ParseOrganismsOk(header, table, refName);
    }
  }

  /** Once a prefix of the rows fails, the whole table fails the same way. */
  lemma {:induction false} ParseOrganismsFailedPrefix(header: seq<string>, table: seq<seq<string>>, refName: string, k: nat)
    requires k <= |table|
    requires ParseOrganisms(header, table[..k], refName).Err?
    ensures ParseOrganisms(header, table, refName) == ParseOrganisms(header, table[..k], refName)
  {
    if k < |table| {
      assert table[..|table| - 1][..k] == table[..k];
      ParseOrganismsFailedPrefix(header, table[..|table| - 1], refName, k);
    } else {
      assert table[..k] == table;
    }
  }

  /** No parsing step raises StopIteration: only the missing version or
      header row does. */
  lemma {:induction false} ParseOrganismsNeverStops(header: seq<string>, table: seq<seq<string>>, refName: string)
    ensures ParseOrganisms(header, table, refName) != Err(StopIteration)
  {
    if table != [] {
      ParseOrganismsNeverStops(header, table[..|table| - 1], refName);
      OrganismNeverStops(header, table[|table| - 1], refName);
    }
  }

  lemma {:induction false} OrganismPrefixNeverStops(header: seq<string>, cells: seq<Result<real>>, refName: string, n: nat)
    requires 1 <= n <= |header|
    requires forall i :: 0 <= i < |cells| ==> cells[i] != Err(StopIteration)
    ensures OrganismPrefix(header, cells, refName, n) != Err(StopIteration)
  {
    if n > 1 {
      OrganismPrefixNeverStops(header, cells, refName, n - 1);
    }
  }

  lemma OrganismNeverStops(header: seq<string>, row: seq<string>, refName: string)
    ensures OrganismOf(header, row, refName) != Err(StopIteration)
  {
    if |header| > 0 {
      OrganismPrefixNeverStops(header, Cells(row), refName, |header|);
    }
  }

  // ---------------------------------------------------------------------
  // The first organism's summary

  /** The organism carries the four percentage columns the summary reads, as numbers. */
  predicate HasPercentages(o: Organism)
  {
    && OneHitOneLibrary in o && o[OneHitOneLibrary].Num?
    && MultipleHitsOneLibrary in o && o[MultipleHitsOneLibrary].Num?
    && OneHitMultipleLibraries in o && o[OneHitMultipleLibraries].Num?
    && Unmapped in o && o[Unmapped].Num?
  }

  /** The three first-hit categories that count as contamination. */
  function RawContamination(o: Organism): real
    requires HasPercentages(o)
  {
    o[OneHitOneLibrary].num + o[MultipleHitsOneLibrary].num + o[OneHitMultipleLibraries].num
  }

  /** The summary exists exactly when the columns are there as numbers, the
      sanity bound of 101 holds and a `Library` entry exists; the rate is the
      three-category sum divided by 100. */
  lemma FirstSummaryOk(o: Organism)
    ensures FirstSummary(o).Ok? <==>
      HasPercentages(o) && RawContamination(o) + o[Unmapped].num <= 101.0 && Library in o
    ensures FirstSummary(o).Ok? ==>
      FirstSummary(o).value == Summary(RawContamination(o) / 100.0, o[Library])
  {
  }

  /** The assertion at line 235 fires exactly when the raw sum plus
      `%Unmapped` exceeds 101. */
  lemma FirstSummaryAssertion(o: Organism)
    ensures FirstSummary(o) == Err(AssertionError) <==>
      HasPercentages(o) && RawContamination(o) + o[Unmapped].num > 101.0
  {
  }

  // ---------------------------------------------------------------------
  // The whole report

  lemma TableLengthUnique(rows: seq<seq<string>>, n: nat)
    requires n <= |rows|
    requires forall i :: 0 <= i < n ==> rows[i] != []
    requires n < |rows| ==> rows[n] == []
    ensures TableLength(rows) == n
  {
  }

  /** A blank row hides every row after it. */
  lemma TableStopsAtBlank(rows: seq<seq<string>>, post: seq<seq<string>>)
    requires |rows| >= 2
    ensures Table(rows + [[]] + post) == Table(rows)
  {
    var all := rows + [[]] + post;
    var xs, ys := rows[2..], all[2..];
    var n := TableLength(xs);
    assert forall i :: 0 <= i < |xs| ==> ys[i] == xs[i];
    assert ys[|xs|] == [];
    TableLengthUnique(ys, n);
    assert all[2..2 + n] == rows[2..2 + n];
  }

  /** The table is the run of non-blank rows after the version and header rows. */
  lemma TableShape(rows: seq<seq<string>>)
    requires |rows| >= 2
    ensures 2 + |Table(rows)| <= |rows|
    ensures 2 + |Table(rows)| < |rows| ==> rows[2 + |Table(rows)|] == []
    ensures forall j :: 0 <= j < |Table(rows)| ==> Table(rows)[j] == rows[2 + j] && rows[2 + j] != []
  {
    var n := TableLength(rows[2..]);
    assert |Table(rows)| == n;
    forall j | 0 <= j < n
      ensures Table(rows)[j] == rows[2 + j] && rows[2 + j] != []
    {
      assert rows[2..][j] == rows[2 + j];
    }
    if 2 + n < |rows| {
      assert rows[2..][n] == rows[2 + n];
    }
  }

  /** The table is exactly the rows from index 2 up to `k` when those are
      not blank and the row at `k`, if any, is. */
  lemma TableEndsAt(rows: seq<seq<string>>, k: nat)
    requires 2 <= k <= |rows|
    requires [] !in rows[2..k]
    requires k < |rows| ==> rows[k] == []
    ensures Table(rows) == rows[2..k]
  {
    assert forall j :: 0 <= j < k - 2 ==> rows[2..][j] == rows[2..k][j];
    TableLengthUnique(rows[2..], k - 2);
  }

  /** How a successful report is put together from its stages: the parsed
      table and the memory summary it was assembled from. */
  lemma ReportStages(threads: Threads, rows: seq<seq<string>>, fastqName: string, ref: string,
                     startTime: string, endTime: string, mem: seq<real>, rep: RunReport)
    returns (parsed: Parsed, usage: MemUsage)
    requires MetricsReport(threads, rows, fastqName, ref, startTime, endTime, mem) == Ok(rep)
    ensures |rows| >= 2
    ensures ParseTable(rows[1], Table(rows), Basename(ref)) == Ok(parsed)
    ensures MemSummary(mem) == Ok(usage)
    ensures rep == Assemble(threads, rows[0], fastqName, startTime, endTime, parsed, usage)
  {
    parsed := ParseTable(rows[1], Table(rows), Basename(ref)).value;
    usage := MemSummary(mem).value;
  }

  /** The report's organisms, rate and index are those of the parsed table. */
  lemma ReportFields(threads: Threads, rows: seq<seq<string>>, fastqName: string, ref: string,
                     startTime: string, endTime: string, mem: seq<real>, rep: RunReport)
    returns (parsed: Parsed)
    requires MetricsReport(threads, rows, fastqName, ref, startTime, endTime, mem) == Ok(rep)
    ensures |rows| >= 2 && ParseTable(rows[1], Table(rows), Basename(ref)) == Ok(parsed)
    ensures rep.organisms == parsed.organisms
    ensures rep.contaminationRate == (if parsed.first.Some? then Some(parsed.first.value.rate) else None)
    ensures rep.fastqScreenIndex == (if parsed.first.Some? then Some(parsed.first.value.index) else None)
  {
    var usage;
    parsed, usage := ReportStages(threads, rows, fastqName, ref, startTime, endTime, mem, rep);
  }

  /** The loop's result: one organism per data row, and a summary exactly
      when there is a first row, taken from that row's organism. */
  lemma ParseTableOk(header: seq<string>, table: seq<seq<string>>, refName: string, parsed: Parsed)
    requires ParseTable(header, table, refName) == Ok(parsed)
    ensures |parsed.organisms| == |table|
    ensures forall j :: 0 <= j < |table| ==> OrganismOf(header, table[j], refName) == Ok(parsed.organisms[j])
    ensures parsed.first.Some? <==> table != []
    ensures table != [] ==>
      var o := parsed.organisms[0];
      && HasPercentages(o)
      && RawContamination(o) + o[Unmapped].num <= 101.0
      && Library in o
      && parsed.first.value == Summary(RawContamination(o) / 100.0, o[Library])
  {
    ParseOrganismsOk(header, table, refName);
    if table != [] {
      FirstSummaryOk(OrganismOf(header, table[0], refName).value);
    }
  }

  /** Every data row parses and, when there is one, the first organism
      passes the summary of lines 229-242. */
  predicate RowsParse(header: seq<string>, table: seq<seq<string>>, refName: string)
  {
    && (forall j :: 0 <= j < |table| ==> OrganismOf(header, table[j], refName).Ok?)
    && (table != [] ==>
          OrganismOf(header, table[0], refName).Ok? && FirstSummary(OrganismOf(header, table[0], refName).value).Ok?)
  }

  /** The loop over the data rows raises nothing exactly when every row
      parses and the first organism passes its summary. */
  lemma ParseTableDefined(header: seq<string>, table: seq<seq<string>>, refName: string)
    ensures ParseTable(header, table, refName).Ok? <==> RowsParse(header, table, refName)
  {
    ParseOrganismsDefined(header, table, refName);
  }

  /** One more data row, as one pass of the loop at lines 215-242 handles
      it: the row's organism is appended, then the first organism's summary
      is recomputed; either step can raise. */
  lemma ParseTableStep(header: seq<string>, table: seq<seq<string>>, row: seq<string>, refName: string)
    requires ParseTable(header, table, refName).Ok?
    ensures var organisms := ParseTable(header, table, refName).value.organisms;
      ParseTable(header, table + [row], refName)
        == match OrganismOf(header, row, refName)
           case Err(e) => Err(e)
           case Ok(o) =>
             match FirstSummary((organisms + [o])[0])
             case Err(e) => Err(e)
             case Ok(summary) => Ok(Parsed(Some(summary), organisms + [o]))
  {
    var longer := table + [row];
    assert longer[..|longer| - 1] == table && longer[|longer| - 1] == row;
    ParseTableOk(header, table, refName, ParseTable(header, table, refName).value);
    if table != [] {
      assert longer[0] == table[0];
      assert FirstRowSummary(header, longer, refName) == FirstRowSummary(header, table, refName);
    } else if OrganismOf(header, row, refName).Ok? {
      assert longer == [row];
      ParseOrganismsSingle(header, row, refName);
    }
  }

  /** A failing prefix of the table makes the whole table fail the same way. */
  lemma ParseTableFailedPrefix(header: seq<string>, table: seq<seq<string>>, refName: string, n: nat)
    requires n <= |table|
    requires ParseTable(header, table[..n], refName).Err?
    ensures ParseTable(header, table, refName) == ParseTable(header, table[..n], refName)
  {
    assert n > 0;
    assert table[..n][0] == table[0];
    assert FirstRowSummary(header, table, refName) == FirstRowSummary(header, table[..n], refName);
    if FirstRowSummary(header, table, refName).Ok? {
      ParseOrganismsFailedPrefix(header, table, refName, n);
    }
  }

  /** A data row before any blank row whose parse fails, together with
      the rows before it, fails the whole table with that error, whatever
      follows. */
  lemma TableFailsAt(rows: seq<seq<string>>, refName: string, k: nat)
    requires 2 <= k < |rows|
    requires [] !in rows[2..k + 1]
    requires ParseTable(rows[1], rows[2..k + 1], refName).Err?
    ensures ParseTable(rows[1], Table(rows), refName) == ParseTable(rows[1], rows[2..k + 1], refName)
  {
    TableStartsWith(rows, k);
    ParseTableFailedPrefix(rows[1], Table(rows), refName, k - 1);
  }

  /** Non-blank rows 2..k all belong to the table. */
  lemma TableStartsWith(rows: seq<seq<string>>, k: nat)
    requires 2 <= k < |rows|
    requires [] !in rows[2..k + 1]
    ensures k - 1 <= |Table(rows)| && Table(rows)[..k - 1] == rows[2..k + 1]
  {
    assert forall j :: 0 <= j < k - 1 ==> rows[2..][j] == rows[2..k + 1][j];
    assert TableLength(rows[2..]) >= k - 1;
  }

  /** The rows read so far, one row further on. */
  lemma SliceGrows(rows: seq<seq<string>>, k: nat)
    requires 2 <= k < |rows|
    ensures rows[2..k + 1] == rows[2..k] + [rows[k]]
  {
  }

  /** One pass of the loop at lines 215-242 over the data row at index
      `k`, which is not blank: when the row and the first organism's
      summary succeed, the rows read so far parse to the organisms with this
      one appended (`DataRowFails` gives the other outcomes). */
  lemma DataRowStep(rows: seq<seq<string>>, refName: string, k: nat, parsed: Parsed)
    requires 2 <= k < |rows| && rows[k] != []
    requires [] !in rows[2..k]
    requires ParseTable(rows[1], rows[2..k], refName) == Ok(parsed)
    ensures [] !in rows[2..k + 1]
    ensures OrganismOf(rows[1], rows[k], refName).Ok? ==>
      var organisms := parsed.organisms + [OrganismOf(rows[1], rows[k], refName).value];
      var summary := FirstSummary(organisms[0]);
      summary.Ok? ==> ParseTable(rows[1], rows[2..k + 1], refName) == Ok(Parsed(Some(summary.value), organisms))
  {
    SliceGrows(rows, k);
    ParseTableStep(rows[1], rows[2..k], rows[k], refName);
  }

  /** The failing outcomes of that pass: the row's organism error, or the
      first organism's summary error, is the error of the whole table. */
  lemma DataRowFails(rows: seq<seq<string>>, refName: string, k: nat, parsed: Parsed)
    requires 2 <= k < |rows| && rows[k] != []
    requires [] !in rows[2..k]
    requires ParseTable(rows[1], rows[2..k], refName) == Ok(parsed)
    ensures OrganismOf(rows[1], rows[k], refName).Err?
      ==> ParseTable(rows[1], Table(rows), refName) == Err(OrganismOf(rows[1], rows[k], refName).error)
    ensures OrganismOf(rows[1], rows[k], refName).Ok? ==>
      var summary := FirstSummary((parsed.organisms + [OrganismOf(rows[1], rows[k], refName).value])[0]);
      summary.Err? ==> ParseTable(rows[1], Table(rows), refName) == Err(summary.error)
  {
    SliceGrows(rows, k);
    ParseTableStep(rows[1], rows[2..k], rows[k], refName);
    if ParseTable(rows[1], rows[2..k + 1], refName).Err? {
      TableFailsAt(rows, refName, k);
    }
  }

  /** With a table that parses, an empty sample list fails at `max(mem)`. */
  lemma ReportEmptyMemory(threads: Threads, rows: seq<seq<string>>, fastqName: string, ref: string,
                          startTime: string, endTime: string)
    requires |rows| >= 2 && ParseTable(rows[1], Table(rows), Basename(ref)).Ok?
    ensures MetricsReport(threads, rows, fastqName, ref, startTime, endTime, [])
         == Err(ValueError("max() arg is an empty sequence"))
  {
  }

  /** A table with a single data row parses when its row does. */
  lemma ParseOrganismsSingle(header: seq<string>, row: seq<string>, refName: string)
    requires OrganismOf(header, row, refName).Ok?
    ensures ParseOrganisms(header, [row], refName) == Ok([OrganismOf(header, row, refName).value])
  {
    var table := [row];
    assert table[..|table| - 1] == [];
    assert table[|table| - 1] == row;
    assert [] + [OrganismOf(header, row, refName).value] == [OrganismOf(header, row, refName).value];
  }

  /** The method returns a record exactly when the version and header
      rows exist, every data row parses, the first organism passes its
      summary and there are memory samples. */
  lemma MetricsReportDefined(threads: Threads, rows: seq<seq<string>>, fastqName: string, ref: string,
                             startTime: string, endTime: string, mem: seq<real>)
    ensures MetricsReport(threads, rows, fastqName, ref, startTime, endTime, mem).Ok?
        <==> |rows| >= 2 && RowsParse(rows[1], Table(rows), Basename(ref)) && mem != []
  {
    if |rows| >= 2 {
      ParseTableDefined(rows[1], Table(rows), Basename(ref));
    }
  }

  /** Missing version or header row: StopIteration, and only then. */
  lemma ReportNeedsVersionAndHeader(threads: Threads, rows: seq<seq<string>>, fastqName: string, ref: string,
                                    startTime: string, endTime: string, mem: seq<real>)
    ensures MetricsReport(threads, rows, fastqName, ref, startTime, endTime, mem) == Err(StopIteration)
        <==> |rows| < 2
  {
    if |rows| >= 2 {
      var refName := Basename(ref);
      var table := Table(rows);
      ParseOrganismsNeverStops(rows[1], table, refName);
      FirstRowSummaryNeverStops(rows[1], table, refName);
      var parsed := ParseTable(rows[1], table, refName);
      assert parsed != Err(StopIteration);
    }
  }

  lemma FirstRowSummaryNeverStops(header: seq<string>, table: seq<seq<string>>, refName: string)
    ensures FirstRowSummary(header, table, refName) != Err(StopIteration)
  {
    if table != [] {
      OrganismNeverStops(header, table[0], refName);
    }
  }

  /** Only rows before the first blank row are read: anything after a blank
      row changes nothing, and the end of the stream ends the table too. */
  lemma BlankRowEndsTable(threads: Threads, rows: seq<seq<string>>, post: seq<seq<string>>, fastqName: string,
                          ref: string, startTime: string, endTime: string, mem: seq<real>)
    requires |rows| >= 2
    ensures MetricsReport(threads, rows + [[]] + post, fastqName, ref, startTime, endTime, mem)
         == MetricsReport(threads, rows, fastqName, ref, startTime, endTime, mem)
  {
    TableStopsAtBlank(rows, post);
    var all := rows + [[]] + post;
    assert all[0] == rows[0] && all[1] == rows[1];
  }

  /** Rows 2, 3, ... are non-blank and give `organisms`, one each, in order. */
  predicate RowsGiveOrganisms(rows: seq<seq<string>>, refName: string, organisms: seq<Organism>)
  {
    && 2 + |organisms| <= |rows|
    && forall j :: 0 <= j < |organisms| ==>
         rows[2 + j] != [] && OrganismOf(rows[1], rows[2 + j], refName) == Ok(organisms[j])
  }

  /** One organism per data row, in order, each built from its row by
      lines 220-224. */
  lemma ReportOrganisms(threads: Threads, rows: seq<seq<string>>, fastqName: string, ref: string,
                        startTime: string, endTime: string, mem: seq<real>, rep: RunReport)
    requires MetricsReport(threads, rows, fastqName, ref, startTime, endTime, mem) == Ok(rep)
    ensures RowsGiveOrganisms(rows, Basename(ref), rep.organisms)
  {
    var parsed := ReportFields(threads, rows, fastqName, ref, startTime, endTime, mem, rep);
    OrganismsOfTable(rows, Basename(ref), parsed, rep.organisms);
  }

  /** The data rows stop at the first blank row: the row after the last
      organism, when there is one, is blank. */
  lemma ReportStopsAtBlankRow(threads: Threads, rows: seq<seq<string>>, fastqName: string, ref: string,
                              startTime: string, endTime: string, mem: seq<real>, rep: RunReport)
    requires MetricsReport(threads, rows, fastqName, ref, startTime, endTime, mem) == Ok(rep)
    ensures 2 + |rep.organisms| <= |rows|
    ensures 2 + |rep.organisms| < |rows| ==> rows[2 + |rep.organisms|] == []
  {
    var parsed := ReportFields(threads, rows, fastqName, ref, startTime, endTime, mem, rep);
    OrganismsOfTable(rows, Basename(ref), parsed, rep.organisms);
  }

  lemma OrganismsOfTable(rows: seq<seq<string>>, refName: string, parsed: Parsed, organisms: seq<Organism>)
    requires |rows| >= 2 && ParseTable(rows[1], Table(rows), refName) == Ok(parsed)
    requires organisms == parsed.organisms
    ensures RowsGiveOrganisms(rows, refName, organisms)
    ensures 2 + |organisms| < |rows| ==> rows[2 + |organisms|] == []
  {
    ParseTableOk(rows[1], Table(rows), refName, parsed);
    TableShape(rows);
    forall j | 0 <= j < |organisms|
      ensures rows[2 + j] != [] && OrganismOf(rows[1], rows[2 + j], refName) == Ok(organisms[j])
    {
      assert Table(rows)[j] == rows[2 + j];
    }
  }

  /** The contamination rate and the index come from the first organism
      alone and are absent without data rows; the rate is the three
      first-hit percentages over 100, and the sanity bound held. */
  lemma ReportContamination(threads: Threads, rows: seq<seq<string>>, fastqName: string, ref: string,
                            startTime: string, endTime: string, mem: seq<real>, rep: RunReport)
    requires MetricsReport(threads, rows, fastqName, ref, startTime, endTime, mem) == Ok(rep)
    ensures rep.contaminationRate.Some? <==> rep.organisms != []
    ensures rep.fastqScreenIndex.Some? <==> rep.organisms != []
    ensures rep.organisms != [] ==>
      && HasPercentages(rep.organisms[0])
      && RawContamination(rep.organisms[0]) + rep.organisms[0][Unmapped].num <= 101.0
      && rep.contaminationRate.Some? && rep.contaminationRate.value == RawContamination(rep.organisms[0]) / 100.0
      && Library in rep.organisms[0]
      && rep.fastqScreenIndex == Some(rep.organisms[0][Library])
  {
    var parsed := ReportFields(threads, rows, fastqName, ref, startTime, endTime, mem, rep);
    FirstOrganismFields(rows[1], Table(rows), Basename(ref), parsed, rep.organisms, rep.contaminationRate,
                        rep.fastqScreenIndex);
  }

  /** The rate and index fields as the report takes them from a parsed table. */
  lemma FirstOrganismFields(header: seq<string>, table: seq<seq<string>>, refName: string, parsed: Parsed,
                            organisms: seq<Organism>, rate: Option<real>, index: Option<Value>)
    requires ParseTable(header, table, refName) == Ok(parsed)
    requires organisms == parsed.organisms
    requires rate == (if parsed.first.Some? then Some(parsed.first.value.rate) else None)
    requires index == (if parsed.first.Some? then Some(parsed.first.value.index) else None)
    ensures rate.Some? <==> organisms != []
    ensures index.Some? <==> organisms != []
    ensures organisms != [] ==>
      && HasPercentages(organisms[0])
      && RawContamination(organisms[0]) + organisms[0][Unmapped].num <= 101.0
      && rate.Some? && rate.value == RawContamination(organisms[0]) / 100.0
      && Library in organisms[0]
      && index == Some(organisms[0][Library])
  {
    ParseTableOk(header, table, refName, parsed);
  }

  /** A successful report is exactly the assembly of a successful table
      parse and a successful memory summary. */
  lemma ReportFromStages(threads: Threads, rows: seq<seq<string>>, fastqName: string, ref: string,
                         startTime: string, endTime: string, mem: seq<real>, parsed: Parsed, usage: MemUsage)
    requires |rows| >= 2
    requires ParseTable(rows[1], Table(rows), Basename(ref)) == Ok(parsed) && MemSummary(mem) == Ok(usage)
    ensures MetricsReport(threads, rows, fastqName, ref, startTime, endTime, mem)
         == Ok(Assemble(threads, rows[0], fastqName, startTime, endTime, parsed, usage))
  {
  }

  /** A table whose parse succeeds still parses when cut down to its first
      row, to its first organism and the same summary. */
  lemma ParseTableFirstRow(header: seq<string>, table: seq<seq<string>>, refName: string, parsed: Parsed)
    requires ParseTable(header, table, refName) == Ok(parsed) && table != []
    ensures ParseTable(header, [table[0]], refName) == Ok(Parsed(parsed.first, [parsed.organisms[0]]))
  {
    ParseTableOk(header, table, refName, parsed);
    ParseOrganismsSingle(header, table[0], refName);
    assert [table[0]][0] == table[0];
  }

  /** Truncating the table after its first data row leaves the rate and the
      index as they were: later rows never change them. */
  lemma ContaminationFromFirstRow(threads: Threads, rows: seq<seq<string>>, fastqName: string, ref: string,
                                  startTime: string, endTime: string, mem: seq<real>, rep: RunReport)
    requires MetricsReport(threads, rows, fastqName, ref, startTime, endTime, mem) == Ok(rep)
    requires |rows| >= 3
    ensures MetricsReport(threads, rows[..3], fastqName, ref, startTime, endTime, mem).Ok?
    ensures MetricsReport(threads, rows[..3], fastqName, ref, startTime, endTime, mem).value.contaminationRate
         == rep.contaminationRate
    ensures MetricsReport(threads, rows[..3], fastqName, ref, startTime, endTime, mem).value.fastqScreenIndex
         == rep.fastqScreenIndex
  {
    var parsed, usage := ReportStages(threads, rows, fastqName, ref, startTime, endTime, mem, rep);
    TableOfFirstRows(rows);
    var short := rows[..3];
    assert short[0] == rows[0] && short[1] == rows[1];
    var shortParsed := parsed;
    if rows[2] != [] {
      ParseTableFirstRow(rows[1], Table(rows), Basename(ref), parsed);
      shortParsed := Parsed(parsed.first, [parsed.organisms[0]]);
    }
    ReportFromStages(threads, short, fastqName, ref, startTime, endTime, mem, shortParsed, usage);
  }

  /** The table of the first three rows: nothing when the third row is
      blank, and otherwise that row, which also leads the full table. */
  lemma TableOfFirstRows(rows: seq<seq<string>>)
    requires |rows| >= 3
    ensures Table(rows[..3]) == (if rows[2] == [] then [] else [rows[2]])
    ensures rows[2] == [] ==> Table(rows) == []
    ensures rows[2] != [] ==> Table(rows) != [] && Table(rows)[0] == rows[2]
  {
    var short := rows[..3];
    assert short[2] == rows[2];
    if rows[2] == [] {
      TableLengthUnique(short[2..], 0);
      TableLengthUnique(rows[2..], 0);
    } else {
      TableLengthUnique(short[2..], 1);
      assert rows[2..][0] == rows[2];
    }
  }

  /** Two tables that agree up to their first data row give the same rate
      and index, whatever rows follow. */
  lemma ContaminationIgnoresLaterRows(threads: Threads, rows: seq<seq<string>>, rows': seq<seq<string>>,
                                      fastqName: string, ref: string, startTime: string, endTime: string, mem: seq<real>)
    requires |rows| >= 3 && |rows'| >= 3 && rows[..3] == rows'[..3]
    requires MetricsReport(threads, rows, fastqName, ref, startTime, endTime, mem).Ok?
    requires MetricsReport(threads, rows', fastqName, ref, startTime, endTime, mem).Ok?
    ensures MetricsReport(threads, rows, fastqName, ref, startTime, endTime, mem).value.contaminationRate
         == MetricsReport(threads, rows', fastqName, ref, startTime, endTime, mem).value.contaminationRate
  {
    ContaminationFromFirstRow(threads, rows, fastqName, ref, startTime, endTime, mem,
                              MetricsReport(threads, rows, fastqName, ref, startTime, endTime, mem).value);
    ContaminationFromFirstRow(threads, rows', fastqName, ref, startTime, endTime, mem,
                              MetricsReport(threads, rows', fastqName, ref, startTime, endTime, mem).value);
  }

  /** A first organism whose three hit percentages plus `%Unmapped` exceed
      101 fails the assertion, whatever the later rows hold. */
  lemma SanityBoundFails(threads: Threads, rows: seq<seq<string>>, fastqName: string, ref: string,
                         startTime: string, endTime: string, mem: seq<real>)
    requires |rows| >= 3 && rows[2] != []
    requires OrganismOf(rows[1], rows[2], Basename(ref)).Ok?
    requires HasPercentages(OrganismOf(rows[1], rows[2], Basename(ref)).value)
    requires RawContamination(OrganismOf(rows[1], rows[2], Basename(ref)).value)
           + OrganismOf(rows[1], rows[2], Basename(ref)).value[Unmapped].num > 101.0
    ensures MetricsReport(threads, rows, fastqName, ref, startTime, endTime, mem) == Err(AssertionError)
  {
    FirstSummaryAssertion(OrganismOf(rows[1], rows[2], Basename(ref)).value);
    assert Table(rows)[0] == rows[2];
  }

  /** The fields the data rows do not decide: the version row (which
      replaces the `prov` argument), the threads setting, the timestamps, and
      the sample, which is the file name itself when it has no directory. */
  lemma ReportFixedFields(threads: Threads, rows: seq<seq<string>>, fastqName: string, ref: string,
                          startTime: string, endTime: string, mem: seq<real>, rep: RunReport)
    requires MetricsReport(threads, rows, fastqName, ref, startTime, endTime, mem) == Ok(rep)
    ensures |rows| >= 2
    ensures rep.fastqScreenVersion == rows[0]
    ensures rep.threads == threads
    ensures rep.beginTimestamp == startTime && rep.endTimestamp == endTime
    ensures '/' !in fastqName ==> rep.sample == fastqName
  {
    var parsed, usage := ReportStages(threads, rows, fastqName, ref, startTime, endTime, mem, rep);
    if '/' !in fastqName {
      JoinDirnameOfPlainName(fastqName);
    }
  }

  /** With the usual header, whose first label is `Library`, the index
      entry is the reference's basename. */
  lemma IndexIsReference(threads: Threads, rows: seq<seq<string>>, fastqName: string, ref: string,
                         startTime: string, endTime: string, mem: seq<real>, rep: RunReport)
    requires MetricsReport(threads, rows, fastqName, ref, startTime, endTime, mem) == Ok(rep)
    requires |rows| >= 3 && rows[2] != []
    requires |rows[1]| > 0 && rows[1][0] == Library && Library !in rows[1][1..]
    ensures rep.fastqScreenIndex == Some(Str(Basename(ref)))
  {
    var parsed := ReportFields(threads, rows, fastqName, ref, startTime, endTime, mem, rep);
    FirstIndexIsReference(rows, Basename(ref), parsed);
  }

  /** The summary of a table under the usual header names the reference. */
  lemma FirstIndexIsReference(rows: seq<seq<string>>, refName: string, parsed: Parsed)
    requires |rows| >= 3 && rows[2] != []
    requires |rows[1]| > 0 && rows[1][0] == Library && Library !in rows[1][1..]
    requires ParseTable(rows[1], Table(rows), refName) == Ok(parsed)
    ensures parsed.first.Some? && parsed.first.value.index == Str(refName)
  {
    ParseTableOk(rows[1], Table(rows), refName, parsed);
    OrganismsOfTable(rows, refName, parsed, parsed.organisms);
    TableShape(rows);
    assert TableLength(rows[2..]) > 0;
    OrganismOfContent(rows[1], rows[2], refName);
  }

  /** The memory figures are the samples' maximum, minimum and mean, in
      that order of size. */
  lemma ReportMemory(threads: Threads, rows: seq<seq<string>>, fastqName: string, ref: string,
                     startTime: string, endTime: string, mem: seq<real>, rep: RunReport)
    requires MetricsReport(threads, rows, fastqName, ref, startTime, endTime, mem) == Ok(rep)
    ensures mem != []
    ensures rep.maxMem == Max(mem) && rep.minMem == Min(mem)
    ensures rep.minMem <= rep.meanMem <= rep.maxMem
  {
    var parsed, usage := ReportStages(threads, rows, fastqName, ref, startTime, endTime, mem, rep);
    MemSummaryOrdered(mem);
  }

  /** An empty sample list fails the whole call, at the latest at `max(mem)`. */
  lemma EmptyMemoryFails(threads: Threads, rows: seq<seq<string>>, fastqName: string, ref: string,
                         startTime: string, endTime: string)
    ensures MetricsReport(threads, rows, fastqName, ref, startTime, endTime, []).Err?
  {
    MemSummaryOrdered([]);
  }

  /** All four percentages read are non-negative numbers. */
  predicate NonNegativePercentages(o: Organism)
  {
    && HasPercentages(o)
    && o[OneHitOneLibrary].num >= 0.0
    && o[MultipleHitsOneLibrary].num >= 0.0
    && o[OneHitMultipleLibraries].num >= 0.0
    && o[Unmapped].num >= 0.0
  }

  /** With non-negative percentages the rate lies in [0, 1.01]: the 101
      bound leaves one point of slack above a true unit interval. */
  lemma RateInRange(threads: Threads, rows: seq<seq<string>>, fastqName: string, ref: string,
                    startTime: string, endTime: string, mem: seq<real>, rep: RunReport)
    requires MetricsReport(threads, rows, fastqName, ref, startTime, endTime, mem) == Ok(rep)
    requires rep.organisms != [] && NonNegativePercentages(rep.organisms[0])
    ensures rep.contaminationRate.Some?
    ensures 0.0 <= rep.contaminationRate.value <= 1.01
  {
    ReportContamination(threads, rows, fastqName, ref, startTime, endTime, mem, rep);
  }
}

=== FILE: text.dfy ===
/** Character-level string operations of the Python runtime used by the model. */
module Text {

  /** Python's `s.rfind(c)`: the index of the last `c` in `s`, or -1. */
  function LastIndex(s: string, c: char): (i: int)
    ensures -1 <= i < |s|
    ensures 0 <= i ==> s[i] == c
    ensures forall j :: i < j < |s| ==> s[j] != c
  {
    if s == [] then -1
    else if s[|s| - 1] == c then |s| - 1
    else LastIndex(s[..|s| - 1], c)
  }

  /** The index of the first `c` in `s`, or `|s|` when there is none. */
  function FirstIndex(s: string, c: char): (i: nat)
    ensures i <= |s|
    ensures i < |s| ==> s[i] == c
    ensures forall j :: 0 <= j < i ==> s[j] != c
  {
    if s == [] then 0
    else if s[0] == c then 0
    else 1 + FirstIndex(s[1..], c)
  }

  /** The last-index contract pins its value down. */
  lemma LastIndexUnique(s: string, c: char, i: int)
    requires -1 <= i < |s|
    requires 0 <= i ==> s[i] == c
    requires forall j :: i < j < |s| ==> s[j] != c
    ensures LastIndex(s, c) == i
  {
  }

  /** Python 2 `str.upper` on a byte string in the C locale: only a-z change. */
  function UpperChar(c: char): char
  {
    if 'a' <= c <= 'z' then (c as int - 32) as char else c
  }

  /** `s.upper()`, character by character. */
  function Upper(s: string): string
  {
    if s == [] then [] else [UpperChar(s[0])] + Upper(s[1..])
  }

  /** Upper maps a-z to A-Z position by position, leaves every other
      character alone, and leaves no lower-case letter behind. */
  lemma {:induction false} UpperFacts(s: string)
    ensures |Upper(s)| == |s|
    ensures forall i :: 0 <= i < |s| && 'a' <= s[i] <= 'z' ==>
      Upper(s)[i] as int == s[i] as int - 32 && 'A' <= Upper(s)[i] <= 'Z'
    ensures forall i :: 0 <= i < |s| && !('a' <= s[i] <= 'z') ==> Upper(s)[i] == s[i]
    ensures forall i :: 0 <= i < |s| ==> !('a' <= Upper(s)[i] <= 'z')
  {
    if s != [] {
      UpperFacts(s[1..]);
      assert Upper(s) == [UpperChar(s[0])] + Upper(s[1..]);
      forall i | 1 <= i < |s|
        ensures Upper(s)[i] == Upper(s[1..])[i - 1] && s[i] == s[1..][i - 1]
      {
      }
    }
  }

  /** Upper-casing twice is upper-casing once. */
  lemma UpperIdempotent(s: string)
    ensures Upper(Upper(s)) == Upper(s)
  {
    UpperFacts(s);
    UpperFacts(Upper(s));
  }

  /** A character Upper does not produce from a-z survives only if it was there. */
  lemma UpperKeeps(s: string, c: char)
    requires c !in s && !('A' <= c <= 'Z')
    ensures c !in Upper(s)
  {
    UpperFacts(s);
  }

  /** Python's `s.split(c)`: the pieces between the separators, always at least one. */
  function Split(s: string, c: char): (pieces: seq<string>)
    ensures |pieces| >= 1
  {
    if s == [] then [[]]
    else
      var rest := Split(s[1..], c);
      if s[0] == c then [[]] + rest else [[s[0]] + rest[0]] + rest[1..]
  }

  /** Split of a separator-free prefix glued to the first piece of the rest. */
  lemma {:induction false} SplitPrefix(x: string, s: string, c: char)
    requires c !in x
    ensures Split(x + s, c) == [x + Split(s, c)[0]] + Split(s, c)[1..]
  {
    var pieces := Split(s, c);
    if x == [] {
      assert x + s == s && x + pieces[0] == pieces[0];
      assert pieces == [pieces[0]] + pieces[1..];
    } else {
      SplitPrefix(x[1..], s, c);
      var xs := x + s;
      assert x[0] in x;
      assert xs[0] == x[0] && xs[1..] == x[1..] + s;
      var rest := Split(x[1..] + s, c);
      assert Split(xs, c) == [[x[0]] + rest[0]] + rest[1..];
      assert rest[0] == x[1..] + pieces[0] && rest[1..] == pieces[1..];
      assert [x[0]] + (x[1..] + pieces[0]) == x + pieces[0];
    }
  }

  /** A separator ends the first piece exactly. */
  lemma SplitCons(x: string, rest: string, c: char)
    requires c !in x
    ensures Split(x + [c] + rest, c) == [x] + Split(rest, c)
  {
    SplitPrefix(x, [c] + rest, c);
    assert x + [c] + rest == x + ([c] + rest);
    assert ([c] + rest)[1..] == rest;
    assert x + [] == x;
  }

  /** A string without the separator is one piece. */
  lemma SplitWhole(x: string, c: char)
    requires c !in x
    ensures Split(x, c) == [x]
  {
    SplitPrefix(x, [], c);
    assert x + [] == x;
  }

  /** Python's `s.lstrip(' ')`. */
  function TrimSpaces(s: string): (r: string)
  {
    if s != [] && s[0] == ' ' then TrimSpaces(s[1..]) else s
  }

  /** Leading spaces go, the rest stays. */
  lemma {:induction false} TrimSpacesPrefix(spaces: string, x: string)
    requires forall i :: 0 <= i < |spaces| ==> spaces[i] == ' '
    requires x == [] || x[0] != ' '
    ensures TrimSpaces(spaces + x) == x
  {
    if spaces != [] {
      assert (spaces + x)[1..] == spaces[1..] + x;
      TrimSpacesPrefix(spaces[1..], x);
    }
  }

  /** `c.join(pieces)` for a non-empty list of pieces. */
  function JoinWith(pieces: seq<string>, c: char): string
    requires pieces != []
  {
    if |pieces| == 1 then pieces[0] else pieces[0] + [c] + JoinWith(pieces[1..], c)
  }

  /** Splitting undoes joining when no piece holds the separator. */
  lemma {:induction false} SplitJoinWith(pieces: seq<string>, c: char)
    requires pieces != []
    requires forall k :: 0 <= k < |pieces| ==> c !in pieces[k]
    ensures Split(JoinWith(pieces, c), c) == pieces
  {
    if |pieces| == 1 {
      SplitWhole(pieces[0], c);
    } else {
      SplitJoinWith(pieces[1..], c);
      SplitCons(pieces[0], JoinWith(pieces[1..], c), c);
      assert [pieces[0]] + pieces[1..] == pieces;
    }
  }
}
